=== FILE: README.md ===
# roots — a Dafny model of a bracketing root-finding library

`roots` finds a zero of a scalar function `f` on a caller-supplied interval `[a, b]`.
This project models the library's solvers and proves properties about them.

The newer API (`roots/`) works like this:

- Each solver fills a caller-owned `roots_params` record.
- It records the method name and the interval.
- It runs the shared bracket validator `check_a_b_compute_fa_fb`.
- It then iterates up to `iter_max` times.
- It returns `roots_success`, `roots_error_root_not_bracketed` or `roots_error_max_iter`.

The solvers are false position, Dekker's method, Ridder's method and the secant method.

The older API (`include/roots.h`, `src/`, and `roots/src/roots_bisection.c`, which is still written against it) works differently:

- It returns the root as a `double`.
- It reports errors through `roots_error`, which ends the process with the error's code as its exit status.

## How the model is built

- A `double` is a `real`, and the user function is `f: real -> real`. The opaque `fparams` pointer is dropped.
- Some divisions can have a zero divisor: false position, both secant methods and Ridder's method. These go through a division `div` supplied by the caller. `Arith.IsDivision` says only that it is exact when the divisor is non-zero, so what IEEE arithmetic does on a zero divisor is left open.
  - Dekker's division is guarded by `fa != fb`, so it uses Dafny's `/`.
- Ridder's square root is likewise a parameter `sqrt`. `Arith.IsSqrt` says only that it is the non-negative root of a non-negative argument.
- `roots_params` is the class `Roots.RootsParams`.
  - `Value()` returns a snapshot of its fields as the datatype `Roots.Params`.
  - Every newer-API solver method ensures that `r.Value() == <Solver>.Solve(..., old(r.Value()))`.
- Each solver has pure specification functions:
  - `Step` is one pass of the loop. It returns a `Pass`: `Converged(root, residual)` or `Next(state)`.
  - `Loop` is the `for` loop. It returns `Found(nIters, root, residual)` or `Exhausted(nIters)`.
  - `Solve` is the whole call: it writes the name and interval (`Start`), runs `Validate`, then either concludes the loop's outcome (`Conclude`) or records the validation result (`Record`).
- The imperative methods follow the C code statement by statement.
  - Each newer-API solver's `for` loop is a separate method `Iterate`.
  - Dekker's and Ridder's loop bodies are their own methods, `Iteration`.
- The older-API solvers return `Legacy.Result`:
  - `Root(x)` is the value the C function returns.
  - `Fatal(error)` is the `roots_error` call that ends the process.
- Ghost out-parameters `evals` count the evaluations of `f`. The count is the initial two plus at most one per iteration (two per iteration for Ridder).

### Where the code departs from its comments or from the textbook method

The model follows the code in each of these cases:

- `sign` (`roots/src/utils.h:57-62`): the comment promises +1 for zero, but `(x>0) - (x<0)` gives 0. `Utils.Sign` returns 0.
- `cicle` (`roots/src/utils.h:29`, `43-45`): the comment promises `a, b, c = b, c, b`, but the third assignment reads the already updated `b`. So `c` keeps its value (`Utils.Cicle`).
- Ridder's update (`roots/src/roots_ridder.c:78-85`): when `fa*fc < 0` the code replaces `a` with `c`. The standard Ridders' update replaces `b` in that case, keeping `(a, c)`, which has the sign change.
  - `Ridder.SignChangeNotKept` gives a function for which the validated bracket `[0, 2]` turns into a pair with `f` positive at both ends after one step.
- Dekker's update (`roots/src/roots_dekker.c:45`, `63-71`): the comment on `d` asks for `f(d)*f(b) < 0`, but the update tests the old `fa*fb` rather than the new value `fc`.
  - `Dekker.SignChangeNotKept` shows that for `f(x) = x - 1.5` on `[0, 2]`, the first step leaves `a`, `b` and `d` all where `f` is negative.
- Because of the last two points, `fa*fb <= 0` is not kept from one iteration to the next by Dekker's and Ridder's methods as written; it fails as shown.
  - It is proved for false position (`FalsePosition.StepKeepsBracket`) and for bisection (`Bisection.StepAccuracy`).
- `roots/include/roots.h:17-23` declares `max_iters` and `tol` but no `xtol`, `ftol` or `iter_max`, yet every solver reads `r->xtol`, `r->ftol` and `r->iter_max`. `Roots.Params` carries all of them.
- Ridder's loop counts `n_iters` from 1 through `iter_max` inclusive, where the others count from 0 below `iter_max`. So after running out, Ridder's record holds `iter_max + 1`.

## Model

| member | source | states |
|---|---|---|
| Roots.Code | roots/include/roots.h:10-15 | `roots_continue` is -1, the only negative code; `roots_success` is 0; all codes lie in -1..2 |
| Roots.CodesAreOrdered | roots/include/roots.h:10-15 | the four codes are strictly increasing in declaration order, so distinct statuses have distinct codes |
| Roots.OnlyContinueIsNotTerminal | roots/src/roots_false_position.c:42-43 | the solvers' `>= roots_success` test after validation holds exactly when the status is not `roots_continue` |
| Utils.Swap | roots/src/utils.h:15-23 | the two values are exchanged |
| Utils.SwapTwice | roots/src/utils.h:15-23 | swapping twice restores both values |
| Utils.Cicle | roots/src/utils.h:37-46 | `a` gets `b` and `b` gets `c`, and `c` keeps its value (unlike what the comment promises) |
| Utils.Sign | roots/src/utils.h:59-63 | the result is +1 for positive, -1 for negative and 0 for zero input |
| Utils.BestLast | roots/src/utils.h:78-89 | afterwards `abs(fb) <= abs(fa)`; the pair is unchanged or exactly swapped; it is unchanged when already ordered; `fa*fb` is preserved |
| Utils.BestLastIdempotent | roots/src/utils.h:85-88 | ordering twice is the same as ordering once |
| Utils.EnsureBIsClosestToRoot | roots/src/utils.h:78-89 | the out-parameters are the ordered pair `BestLast` describes, with `abs(fb') <= abs(fa')` |
| Validator.Validate | roots/src/check_a_b_compute_fa_fb.c:31-73 | a reported root is `a` or `b` with `f` there as residual, and it is `b` when only `abs(f(b)) < ftol`; a reported `a` other than `b` means `abs(f(a)) < ftol` or `abs(f(a)) < abs(f(b))`, so on a tie of the narrow check `b` is returned; "not bracketed" holds exactly when both residuals reach `ftol` and `f(a)*f(b) > 0`; a bracket is passed on exactly when both residuals reach `ftol`, `f(a)*f(b) <= 0` and `abs(a - b) >= xtol`; a bracket passed on keeps its values, is `(a,b)` or `(b,a)`, has `fa*fb <= 0`, has the better end in `b`, is at least `xtol` wide and has `abs(fb) >= ftol` |
| Validator.ProceedHasStrictSignChange | roots/src/check_a_b_compute_fa_fb.c:41-59 | with `ftol > 0`, a bracket passed on has `fa*fb < 0`, so `fb - fa` is non-zero |
| Validator.ValidateIgnoresBWhenAIsRoot | roots/src/check_a_b_compute_fa_fb.c:41-47 | when `abs(f(a)) < ftol` the outcome is `a` with its residual, whatever `f` does elsewhere |
| Validator.ValidateReadsOnlyEndpoints | roots/src/check_a_b_compute_fa_fb.c:41-59 | two functions that agree at `a` and `b` get the same outcome |
| Validator.NarrowBracketReturnsBetterEnd | roots/src/check_a_b_compute_fa_fb.c:62-69 | a bracketing interval narrower than `xtol` is solved, at the endpoint with the smaller residual |
| Validator.CheckABComputeFaFb | roots/src/check_a_b_compute_fa_fb.c:31-73 | the status and the record fields written are those of `Validate`; a continuing call hands back the ordered bracket; `f` is evaluated once when `a` is a root and twice otherwise |
| FalsePosition.PointBetween | roots/src/roots_false_position.c:48 | when `fa*fb < 0` the new point `c` lies in the bracket, strictly inside when `a != b` |
| FalsePosition.StepResult | roots/src/roots_false_position.c:46-66 | a step succeeds, with `root = c` and `residual = f(c)`, exactly when `abs(c - b) < tol` or `f(c) == 0`; otherwise `c` becomes one endpoint and tracked values stay tracked |
| FalsePosition.StepKeepsBracket | roots/src/roots_false_position.c:46-66 | from a strict sign change, a step reports a point in the bracket with `f` there as residual, or keeps `fa*fb < 0` with tracked values, replacing exactly one endpoint by `c` |
| FalsePosition.LoopResult | roots/src/roots_false_position.c:46-71 | the loop converges in an iteration below `iter_max` with `f(root)` as residual, or ends with the counter at `iter_max` |
| FalsePosition.LoopStaysInBracket | roots/src/roots_false_position.c:46-66 | from a strict sign change, a reported root lies in the starting bracket |
| FalsePosition.SolveResult | roots/src/roots_false_position.c:35-71 | the record names the method and the caller's interval, never holds `roots_continue`, reports "not bracketed" exactly when validation does, has `residual == f(root)` on success and `n_iters == iter_max` on `roots_error_max_iter` |
| FalsePosition.SolveStaysInBracket | roots/src/roots_false_position.c:42-66 | with `ftol > 0`, a root found by iterating lies between the caller's `a` and `b` |
| FalsePosition.Iterate | roots/src/roots_false_position.c:46-71 | the record after the loop is the loop's outcome concluded into the record; at most `iter_max` evaluations |
| FalsePosition.RootsFalsePosition | roots/src/roots_false_position.c:27-72 | the record after the call is `Solve` of the record before; the return value is the stored error key; at most `iter_max + 2` evaluations |
| Dekker.Trial | roots/src/roots_dekker.c:51-57 | the trial point lies between `b` and `m = (b+d)/2`; any trial point other than `m` is the secant value, lying strictly between `b` and `m`, so every other case falls back to `m`; such a secant value is always taken |
| Dekker.UpdateKeepsValues | roots/src/roots_dekker.c:60-74 | the update keeps `fa == f(a)` and `fb == f(b)` and puts the better end in `b`; with `fa*fb < 0` the pair is `{a, c}` and `d` is kept, otherwise the pair is `{c, b}` and `d` becomes `b` |
| Dekker.StepReportsBetterEnd | roots/src/roots_dekker.c:74-81 | a converged step reports `b` with `f(b)` as residual, no larger than `abs(f(a))`, and `abs(b-a) < tol` or `fb == 0`; a continuing step meets neither |
| Dekker.LoopResult | roots/src/roots_dekker.c:49-86 | the loop converges below `iter_max` with `f(root)` as residual, or ends with the counter at `iter_max` |
| Dekker.SolveResult | roots/src/roots_dekker.c:36-86 | as for false position: name `Dekker's`, interval, terminal status, "not bracketed" exactly as validation, `residual == f(root)` on success, `n_iters == iter_max` after running out |
| Dekker.SignChangeNotKept | roots/src/roots_dekker.c:45-71 | an input that validates to `[0, 2]` and after one step has `f(a)*f(b) > 0` |
| Dekker.Iteration | roots/src/roots_dekker.c:51-81 | one pass of the loop body computes exactly `Step`, with one evaluation |
| Dekker.Iterate | roots/src/roots_dekker.c:46-86 | the record after the loop is the loop's outcome concluded into the record, with `d` starting at `a`; at most `iter_max` evaluations |
| Dekker.RootsDekker | roots/src/roots_dekker.c:27-87 | the record after the call is `Solve` of the record before; returns the stored key; at most `iter_max + 2` evaluations |
| Ridder.RootExceedsResidual | roots/src/roots_ridder.c:60 | when `fa*fb < 0`, `d = sqrt(fm*fm - fa*fb)` exceeds `abs(fm)` |
| Ridder.PointInside | roots/src/roots_ridder.c:49-61 | when `fa*fb < 0` and `a != b`, `c` is closer to `m` than `a` is, and lies strictly inside the bracket |
| Ridder.Adjust | roots/src/roots_ridder.c:72-85 | the new point `c` is always an endpoint; when `fm*fc < 0` the pair is `{m, c}` with a strict sign change; when `fm*fc >= 0`, a strict sign change between `a` and `b` is never carried over (`fa*fb < 0` gives a new pair with no strict sign change), for every input |
| Ridder.StepResult | roots/src/roots_ridder.c:48-88 | a step stops at `m` exactly when `abs(m - a) < tol` or `f(m) == 0`, otherwise at `c` exactly when `abs(c - b) < tol` or `f(c) == 0`, with `f` there as residual; a continuing step keeps points among `a, b, m, c` with tracked values and the better end in `b`, and the pair is `{m, c}` (with a sign change) when `fm*fc < 0`, else `{c, b}` when `fa*fc < 0`, else `{a, c}` |
| Ridder.StepStaysInside | roots/src/roots_ridder.c:49-88 | from a strict sign change, every point a step reports or keeps lies in the old bracket |
| Ridder.SignChangeNotKept | roots/src/roots_ridder.c:72-85 | an input that validates to `[0, 2]` and after one step is the pair `(2, 0.4)` with `f` positive at both |
| Ridder.LoopResult | roots/src/roots_ridder.c:46-93 | the loop converges in an iteration numbered from the start through `iter_max` with `f(root)` as residual, or ends with the counter at `iter_max + 1` |
| Ridder.SolveResult | roots/src/roots_ridder.c:35-93 | name `Ridder's`, interval, terminal status, "not bracketed" exactly as validation, `residual == f(root)` on success, `n_iters == iter_max + 1` after running out |
| Ridder.Iteration | roots/src/roots_ridder.c:48-88 | one pass of the loop body computes exactly `Step`, with one or two evaluations |
| Ridder.Iterate | roots/src/roots_ridder.c:46-93 | the record after the loop is the loop's outcome, counted from 1, concluded into the record; at most `2*iter_max` evaluations |
| Ridder.RootsRidder | roots/src/roots_ridder.c:27-94 | the record after the call is `Solve` of the record before; returns the stored key; at most `2*iter_max + 2` evaluations |
| Secant.PointIsChordZero | roots/src/roots_secant.c:50 | with a non-zero denominator the secant point equals the false-position point, and lies in the bracket when `fa*fb < 0` |
| Secant.FirstPointDefined | roots/src/roots_secant.c:44-50 | with `ftol > 0`, the first secant point after validation has a non-zero denominator and lies between the caller's `a` and `b` |
| Secant.StepResult | roots/src/roots_secant.c:50-64 | a converged step reports `c` with `f(c)`, and `abs(fc) < ftol` or `abs(c-b) < xtol`; otherwise the pair shifts to `(b, c)` with neither tolerance met |
| Secant.LoopResult | roots/src/roots_secant.c:48-69 | the loop converges below `iter_max` with `f(root)` as residual, or ends with the counter at `iter_max` |
| Secant.SolveResult | roots/src/roots_secant.c:38-69 | name `secant`, interval, terminal status, "not bracketed" exactly as validation, `residual == f(root)` on success, `n_iters == iter_max` after running out |
| Secant.Iterate | roots/src/roots_secant.c:48-69 | the record after the loop is the loop's outcome concluded into the record; at most `iter_max` evaluations |
| Secant.RootsSecant | roots/src/roots_secant.c:30-70 | the record after the call is `Solve` of the record before; returns the stored key; at most `iter_max + 2` evaluations |
| Legacy.Code | include/roots.h:9-14 | `roots_error_abort` is -1, the only negative code; `roots_success` is 0; all codes lie in -1..2 |
| Legacy.ExitStatus | src/roots_info_warn_error.c:32-42 | an error other than success or abort ends the process with its own code, which is positive |
| LegacyUtils.Swap | src/utils.h:4-12 | the two pointed-to doubles exchange values |
| LegacyUtils.SwapTwice | src/utils.h:4-12 | swapping twice restores both values |
| LegacyUtils.SwapEqual | src/utils.h:9-11 | swapping equal values, or a value with itself, changes nothing |
| Bisection.HalveHalves | roots/src/roots_bisection.c:48-57 | exactly one endpoint becomes the midpoint, the signed width halves and the new interval lies in the old |
| Bisection.HalveKeepsSignChange | roots/src/roots_bisection.c:52-57 | a strict sign change survives halving when `f` does not vanish at the midpoint |
| Bisection.StepResult | roots/src/roots_bisection.c:48-61 | a converged step returns the endpoint with the smaller residual (`x1` on a tie), with `abs(fm) < ftol` or width `< xtol`; a continuing step keeps the halved interval with neither met |
| Bisection.LoopResult | roots/src/roots_bisection.c:46-68 | the loop converges below `itmax` at a root inside its starting interval, or ends with the counter at `itmax` |
| Bisection.StepAccuracy | roots/src/roots_bisection.c:48-61 | with `ftol > 0`, from a strict sign change a step returns a root with residual `< ftol` or a sign change within `xtol`, or keeps the strict sign change |
| Bisection.LoopAccuracy | roots/src/roots_bisection.c:46-61 | the same accuracy for the root the loop returns |
| Bisection.ConvergesWithinBudget | roots/src/roots_bisection.c:46-61 | an interval narrower than `xtol * 2^(itmax - it)` is reported before the iterations run out |
| Bisection.BisectResult | roots/src/roots_bisection.c:29-68 | `a` is tried first, then `b`; "not bracketed" exactly when both residuals reach `ftol` and `f(a)*f(b) > 0`; the only other error is running out; a root lies in `[a, b]` |
| Bisection.BisectWithinBudget | roots/src/roots_bisection.c:41-61 | a bracketing interval narrower than `xtol * 2^itmax` always yields a root |
| Bisection.BisectAccuracy | roots/src/roots_bisection.c:29-61 | with `ftol > 0`, a returned root has a residual below `ftol` or a sign change of `f` within `xtol` |
| Bisection.RootsBisection | roots/src/roots_bisection.c:20-69 | the method returns exactly `Bisect`, with at most `itmax + 2` evaluations |
| LegacySecant.RunResult | src/roots_secant.c:29-66 | `a` is tried first, then `b`; "not bracketed" exactly when both residuals reach `ftol` and `f(a)*f(b) > 0`; the only other error is running out |
| LegacySecant.FirstPointInside | src/roots_secant.c:41-48 | with `ftol > 0`, past the endpoint checks the first secant point has a non-zero denominator and lies in `[a, b]` |
| LegacySecant.AgreesWithNewerApi | src/roots_secant.c:46-59 | when `b` is already the better end and the interval is at least `xtol` wide, the older and newer `roots_secant` find the same root, or both run out |
| LegacySecant.RootsSecant | src/roots_secant.c:20-67 | the method returns exactly `Run`, with at most `itmax + 2` evaluations |

## Left out

- Floating point: rounding, overflow, infinities and NaN are not modelled. A zero divisor and the square root of a negative number are left unspecified through the `div` and `sqrt` parameters.
- `fparams` and the argument order of `f` are left out. The newer `roots_secant` calls `f(params, c)` and redeclares `check_a_b_compute_fa_fb` with that order, unlike the other solvers; every `f` here takes only `x`.
- The `method` field is a `char[1024]` written with `sprintf`. Here it is a `string` assignment, with no length bound.
- Ridder.RootsRidder: counters are unbounded `nat`. The C `unsigned int` counter in `n_iters <= iter_max` would wrap to 0 when `iter_max` is `UINT_MAX`, and that is not captured.
- Bisection.RootsBisection and LegacySecant.RootsSecant: counters are unbounded `nat`. The C loops compare a signed `int it` with the unsigned `itmax` (`roots/src/roots_bisection.c:46`, `src/roots_secant.c:46`), so for `itmax > INT_MAX` the counter would overflow, which C leaves undefined; that is not captured.
- `roots_info` (`roots/src/roots_info.c`) and the messages `roots_Warn_Error` prints are I/O and are not modelled. Only the exit status of `roots_error` is modelled, as `Legacy.ExitStatus`.
- `roots_abort` and `abort()` are not modelled: no solver calls them.
- The `return roots_error_max_iter` after `roots_error` cannot be reached, because `roots_error` exits first. This holds in `roots_bisection` (roots/src/roots_bisection.c:66-68) and in the older `roots_secant` (src/roots_secant.c:64-66). Neither return is modelled.
- `roots_brent` and `roots_toms748` are declared in `roots/include/roots.h:62-74` but not defined in the source.
- The commented-out `bracket` helper in `roots/src/utils.h:114-153` is not modelled.
- The test drivers under `test/` only call the solvers and print, so they are not modelled.
- Pointer aliasing in the `roots/src/utils.h` helpers is not modelled. They take `restrict` pointers to the caller's distinct locals, so each pointer is an in-parameter plus an out-parameter. The older `swap` is modelled on heap cells (`LegacyUtils.Cell`).

=== FILE: arith.dfy ===
/** Exact-arithmetic stand-ins for the C math the solvers rely on (`fabs`, `/`, `sqrt`). */
module Arith {

  /** `fabs` */
  function Abs(x: real): (r: real)
    ensures 0.0 <= r && (r == x || r == -x)
  {
    if x < 0.0 then -x else x
  }

  function Min(x: real, y: real): real { if x <= y then x else y }

  function Max(x: real, y: real): real { if x <= y then y else x }

  /** `div` is the C quotient: exact whenever the divisor is non-zero. What IEEE
      division by zero produces (an infinity or a NaN) is deliberately left open. */
  ghost predicate IsDivision(div: (real, real) -> real) {
    forall x: real, y: real :: y != 0.0 ==> div(x, y) == x / y
  }

  /** `sqrt` is the C square root on non-negative arguments; on negative ones
      (where C yields NaN) it is left open. */
  ghost predicate IsSqrt(sqrt: real -> real) {
    forall x: real :: 0.0 <= x ==> 0.0 <= sqrt(x) && sqrt(x) * sqrt(x) == x
  }

  lemma MulPos(x: real, y: real)
    requires 0.0 < x && 0.0 < y
    ensures 0.0 < x * y
  {
  }

  lemma MulNonneg(x: real, y: real)
    requires 0.0 <= x && 0.0 <= y
    ensures 0.0 <= x * y
  {
  }

  lemma AbsMul(x: real, y: real)
    ensures Abs(x * y) == Abs(x) * Abs(y)
  {
    if x < 0.0 && y < 0.0 {
      MulPos(-x, -y);
    } else if x < 0.0 {
      MulNonneg(-x, y);
    } else if y < 0.0 {
      MulNonneg(x, -y);
    } else {
      MulNonneg(x, y);
    }
  }

  /** Non-negative numbers with equal squares are equal: `sqrt` is determined where it
      is specified. */
  lemma SquaresDetermine(x: real, y: real)
    requires 0.0 <= x && 0.0 <= y && x * x == y * y
    ensures x == y
  {
    if x < y {
      MulPos(y - x, y + x);
      assert false;
    }
    if y < x {
      MulPos(x - y, x + y);
      assert false;
    }
  }

  /** A non-negative `d` whose square exceeds `g*g` exceeds `|g|`. */
  lemma RootExceeds(g: real, d: real, e: real)
    requires 0.0 <= d && d * d == g * g + e && 0.0 < e
    ensures Abs(g) < d
  {
    AbsMul(g, g);
    if d <= Abs(g) {
      MulNonneg(Abs(g) - d, Abs(g) + d);
      assert false;
    }
  }

  /** A quotient `q = h*g/d` with `|g| < d` is smaller than `h` in magnitude. */
  lemma QuotientShrinks(q: real, d: real, h: real, g: real)
    requires q * d == h * g && Abs(g) < d && h != 0.0
    ensures Abs(q) < Abs(h)
  {
    var aq, ah, ag := Abs(q), Abs(h), Abs(g);
    AbsMul(q, d);
    AbsMul(h, g);
    var u := ah * ag;
    assert aq * d == u;
    MulLess(ah, ag, d);
    LessByFactor(aq, ah, d, u);
  }

  /** A positive factor keeps a strict inequality. */
  lemma MulLess(x: real, y: real, z: real)
    requires 0.0 < x && y < z
    ensures x * y < x * z
  {
    MulPos(x, z - y);
  }

  /** A positive factor can be cancelled from a strict inequality `x*d == u < y*d`. */
  lemma LessByFactor(x: real, y: real, d: real, u: real)
    requires 0.0 < d && x * d == u && u < y * d
    ensures x < y
  {
    if y <= x {
      MulNonneg(x - y, d);
      assert false;
    }
  }

  /** A non-zero factor cancels. */
  lemma CancelFactor(x: real, y: real, d: real)
    requires x * d == y * d && d != 0.0
    ensures x == y
  {
    var u := x - y;
    assert u * d == 0.0;
    if 0.0 < u && 0.0 < d {
      MulPos(u, d);
      assert false;
    }
    if 0.0 < u && d < 0.0 {
      MulPos(u, -d);
      assert false;
    }
    if u < 0.0 && 0.0 < d {
      MulPos(-u, d);
      assert false;
    }
    if u < 0.0 && d < 0.0 {
      MulPos(-u, -d);
      assert false;
    }
  }

  /** A negative product has one negative and one positive factor. */
  lemma OppositeSigns(x: real, y: real)
    requires x * y < 0.0
    ensures (x < 0.0 && 0.0 < y) || (y < 0.0 && 0.0 < x)
  {
    if 0.0 <= x && 0.0 <= y {
      MulNonneg(x, y);
      assert false;
    }
    if x <= 0.0 && y <= 0.0 {
      MulNonneg(-x, -y);
      assert false;
    }
  }

  /** If `x` and `y` differ in sign and a non-zero `z` does not differ in sign from `x`,
      then `z` differs in sign from `y`. */
  lemma SignChangeMoves(x: real, y: real, z: real)
    requires x * y < 0.0 && 0.0 <= x * z && z != 0.0
    ensures z * y < 0.0
  {
    OppositeSigns(x, y);
    if x < 0.0 {
      if 0.0 < z {
        MulPos(-x, z);
        assert false;
      }
      MulPos(-z, y);
    } else {
      if z < 0.0 {
        MulPos(x, -z);
        assert false;
      }
      MulPos(z, -y);
    }
  }

  /** Two values that both differ in sign from `x` share a sign. */
  lemma SharedOpposite(x: real, y: real, z: real)
    ensures x * y < 0.0 && x * z < 0.0 ==> 0.0 < z * y
  {
    if x * y < 0.0 && x * z < 0.0 {
      OppositeSigns(x, y);
      OppositeSigns(x, z);
      if y < 0.0 {
        MulPos(-z, -y);
      } else {
        MulPos(z, y);
      }
    }
  }

  /** `x` lies in the closed interval spanned by `a` and `b`, in either order. */
  predicate Within(x: real, a: real, b: real) {
    Min(a, b) <= x <= Max(a, b)
  }

  /** A factor multiplied by a positive `d` keeps the sign of the product. */
  lemma SignOfFactor(u: real, d: real, p: real)
    requires 0.0 < d && u * d == p
    ensures 0.0 < p ==> 0.0 < u
    ensures p < 0.0 ==> u < 0.0
    ensures p == 0.0 ==> u == 0.0
  {
    if 0.0 < u {
      MulPos(u, d);
    }
    if u < 0.0 {
      MulPos(-u, d);
    }
  }

  /** The point `c` with `c*(fb - fa) == a*fb - b*fa` (where the chord through `(a, fa)`
      and `(b, fb)` crosses zero) lies between `a` and `b` when `fa < 0 < fb`, and
      strictly inside when `a != b`. */
  lemma ChordZeroBetween(a: real, b: real, fa: real, fb: real, c: real)
    requires fa < 0.0 < fb
    requires c * (fb - fa) == a * fb - b * fa
    ensures Within(c, a, b)
    ensures a != b ==> c != a && c != b
  {
    var d := fb - fa;
    var u := c - a;
    var w := b - c;
    var pu := -fa * (b - a);
    var pw := fb * (b - a);
    assert u * d == pu;
    assert w * d == pw;
    SignOfFactor(u, d, pu);
    SignOfFactor(w, d, pw);
    if a < b {
      MulPos(-fa, b - a);
      MulPos(fb, b - a);
      assert a < c < b;
    } else if b < a {
      MulPos(-fa, a - b);
      MulPos(fb, a - b);
      assert -fa * (b - a) == -((-fa) * (a - b)) && fb * (b - a) == -(fb * (a - b));
      assert b < c < a;
    } else {
      assert pu == 0.0;
      assert c == a;
    }
  }

  /** The two ways the sources write the chord zero, `b - fb*(b - a)/(fb - fa)` and
      `(a*fb - b*fa)/(fb - fa)`, are the same number. */
  lemma TwoChordForms(a: real, b: real, fa: real, fb: real, q1: real, q2: real)
    requires fb - fa != 0.0
    requires q1 * (fb - fa) == fb * (b - a) && q2 * (fb - fa) == a * fb - b * fa
    ensures b - q1 == q2
  {
    assert (b - q1) * (fb - fa) == b * (fb - fa) - q1 * (fb - fa);
    CancelFactor(b - q1, q2, fb - fa);
  }
}

=== FILE: bisection.dfy ===
/** `roots_bisection` (roots/src/roots_bisection.c), written against the older API: it
    returns the root as a value and reports errors through `roots_error`. */
module Bisection {
  import opened Arith
  import opened Roots
  import opened Utils
  import opened Legacy

  /** `2^k` */
  function Pow2(k: nat): (p: real)
    ensures 1.0 <= p
  {
    if k == 0 then 1.0 else 2.0 * Pow2(k - 1)
  }

  /** Steps 4.a-4.b: keep `[x0, xm]` when `f0*fm < 0` and `[xm, x1]` otherwise. */
  function Halve(f: real -> real, x0: real, x1: real, f0: real, f1: real): Bracket {
    var xm := (x0 + x1) / 2.0;
    var fm := f(xm);
    if f0 * fm < 0.0 then Bracket(x0, xm, f0, fm) else Bracket(xm, x1, fm, f1)
  }

  /** Exactly one endpoint is replaced by the midpoint, so the (signed) width halves and
      the new interval lies in the old one; `f0 == f(x0)` and `f1 == f(x1)` are kept. */
  lemma HalveHalves(f: real -> real, x0: real, x1: real, f0: real, f1: real)
    ensures var t := Halve(f, x0, x1, f0, f1);
      var xm := (x0 + x1) / 2.0;
      && t.b - t.a == (x1 - x0) / 2.0
      && (t == Bracket(x0, xm, f0, f(xm)) || t == Bracket(xm, x1, f(xm), f1))
      && Within(t.a, x0, x1) && Within(t.b, x0, x1)
  {
  }

  /** A strict sign change survives halving whenever `f` does not vanish at the midpoint. */
  lemma HalveKeepsSignChange(f: real -> real, x0: real, x1: real, f0: real, f1: real)
    requires f0 * f1 < 0.0 && f((x0 + x1) / 2.0) != 0.0
    ensures Halve(f, x0, x1, f0, f1).fa * Halve(f, x0, x1, f0, f1).fb < 0.0
  {
    var fm := f((x0 + x1) / 2.0);
    if !(f0 * fm < 0.0) {
      SignChangeMoves(f0, f1, fm);
    }
  }

  /** One pass of the loop: halve, then stop when `|fm| < ftol` or `|x1 - x0| < xtol`,
      returning whichever endpoint has the smaller `|f|` (`x1` on a tie). */
  function Step(f: real -> real, xtol: real, ftol: real, x0: real, x1: real, f0: real, f1: real): Pass<Bracket> {
    var t := Halve(f, x0, x1, f0, f1);
    var fm := f((x0 + x1) / 2.0);
    if Abs(fm) < ftol || Abs(t.b - t.a) < xtol then
      if Abs(t.fa) < Abs(t.fb) then Converged(t.a, t.fa) else Converged(t.b, t.fb)
    else Next(t)
  }

  /** On convergence the returned endpoint has the smallest residual of the new interval
      (the second endpoint unless the first one's is strictly smaller), which is below
      `ftol` when `|fm|` was; otherwise the loop goes on with the halved interval, neither
      tolerance met. */
  lemma StepResult(f: real -> real, xtol: real, ftol: real, x0: real, x1: real, f0: real, f1: real)
    requires f0 == f(x0) && f1 == f(x1)
    ensures var t := Halve(f, x0, x1, f0, f1);
      var fm := f((x0 + x1) / 2.0);
      match Step(f, xtol, ftol, x0, x1, f0, f1)
      case Converged(x, fx) =>
        && (x == t.a || x == t.b) && fx == f(x)
        && Abs(fx) <= Abs(t.fa) && Abs(fx) <= Abs(t.fb)
        && (x != t.b ==> Abs(t.fa) < Abs(t.fb))
        && (Abs(fx) < ftol || Abs(t.b - t.a) < xtol)
      case Next(u) => u == t && ftol <= Abs(fm) && xtol <= Abs(u.b - u.a)
  {
    HalveHalves(f, x0, x1, f0, f1);
  }

  /** The loop `for (it = n; it < itmax; it++)`. */
  function Loop(f: real -> real, xtol: real, ftol: real, itmax: nat, s: Bracket, it: nat): Outcome
    decreases itmax - it
  {
    if itmax <= it then Exhausted(it)
    else match Step(f, xtol, ftol, s.a, s.b, s.fa, s.fb)
      case Converged(x, fx) => Found(it, x, fx)
      case Next(t) => Loop(f, xtol, ftol, itmax, t, it + 1)
  }

  /** The loop ends by convergence below `itmax`, with a root inside the interval it
      started from and `f` there as residual, or with the counter at `itmax`. */
  lemma {:induction false} LoopResult(f: real -> real, xtol: real, ftol: real, itmax: nat, s: Bracket, it: nat)
    requires it <= itmax
    requires s.fa == f(s.a) && s.fb == f(s.b)
    ensures match Loop(f, xtol, ftol, itmax, s, it)
      case Found(k, x, fx) => it <= k < itmax && fx == f(x) && Within(x, s.a, s.b)
      case Exhausted(k) => k == itmax
    decreases itmax - it
  {
    if it < itmax {
      StepResult(f, xtol, ftol, s.a, s.b, s.fa, s.fb);
      HalveHalves(f, s.a, s.b, s.fa, s.fb);
      match Step(f, xtol, ftol, s.a, s.b, s.fa, s.fb)
      case Converged(_, _) =>
      case Next(t) => LoopResult(f, xtol, ftol, itmax, t, it + 1);
    }
  }

  /** The accuracy bisection guarantees for a returned root `x` with residual `fx`: below
      `ftol`, or with a sign change of `f` less than `xtol` away. */
  ghost predicate Accurate(f: real -> real, xtol: real, ftol: real, x: real, fx: real) {
    Abs(fx) < ftol || exists y :: Abs(y - x) < xtol && fx * f(y) < 0.0
  }

  /** With a positive `ftol`, a step from a strict sign change either returns a root with
      a residual below `ftol` or a sign change of `f` within `xtol` of it, or keeps a strict
      sign change. */
  lemma StepAccuracy(f: real -> real, xtol: real, ftol: real, x0: real, x1: real, f0: real, f1: real)
    requires 0.0 < ftol
    requires f0 == f(x0) && f1 == f(x1) && f0 * f1 < 0.0
    ensures match Step(f, xtol, ftol, x0, x1, f0, f1)
      case Converged(x, fx) => Accurate(f, xtol, ftol, x, fx)
      case Next(u) => u.fa == f(u.a) && u.fb == f(u.b) && u.fa * u.fb < 0.0
  {
    StepResult(f, xtol, ftol, x0, x1, f0, f1);
    HalveHalves(f, x0, x1, f0, f1);
    var t := Halve(f, x0, x1, f0, f1);
    var fm := f((x0 + x1) / 2.0);
    if fm != 0.0 {
      HalveKeepsSignChange(f, x0, x1, f0, f1);
    }
    match Step(f, xtol, ftol, x0, x1, f0, f1)
    case Converged(x, fx) =>
      if ftol <= Abs(fx) {
        // then |fm| >= ftol > 0, so the new interval keeps the sign change
        if x == t.a {
          assert Abs(t.b - x) < xtol && fx * f(t.b) < 0.0;
        } else {
          assert Abs(t.a - x) < xtol && fx * f(t.a) < 0.0;
        }
      }
    case Next(_) =>
  }

  /** With a positive `ftol`, a strict sign change is kept from step to step, so the root
      the loop returns has a residual below `ftol` or a sign change of `f` within `xtol`. */
  lemma {:induction false} LoopAccuracy(f: real -> real, xtol: real, ftol: real, itmax: nat, s: Bracket, it: nat)
    requires 0.0 < ftol
    requires s.fa == f(s.a) && s.fb == f(s.b) && s.fa * s.fb < 0.0
    ensures var o := Loop(f, xtol, ftol, itmax, s, it);
      o.Found? ==> Accurate(f, xtol, ftol, o.root, o.residual)
    decreases itmax - it
  {
    if it < itmax {
      StepAccuracy(f, xtol, ftol, s.a, s.b, s.fa, s.fb);
      match Step(f, xtol, ftol, s.a, s.b, s.fa, s.fb)
      case Converged(_, _) =>
      case Next(u) => LoopAccuracy(f, xtol, ftol, itmax, u, it + 1);
    }
  }

  /** Each pass halves the interval, so one narrower than `xtol * 2^(itmax - it)` is
      reported before the iterations run out. */
  lemma {:induction false} ConvergesWithinBudget(f: real -> real, xtol: real, ftol: real, itmax: nat, s: Bracket, it: nat)
    requires it < itmax
    requires Abs(s.b - s.a) < xtol * Pow2(itmax - it)
    ensures Loop(f, xtol, ftol, itmax, s, it).Found?
    decreases itmax - it
  {
    HalveHalves(f, s.a, s.b, s.fa, s.fb);
    match Step(f, xtol, ftol, s.a, s.b, s.fa, s.fb)
    case Converged(_, _) =>
    case Next(t) =>
      assert Abs(t.b - t.a) == Abs(s.b - s.a) / 2.0;
      assert Pow2(itmax - it) == 2.0 * Pow2(itmax - (it + 1));
      if it + 1 == itmax {
        assert false;
      }
      ConvergesWithinBudget(f, xtol, ftol, itmax, t, it + 1);
  }

  /** What `roots_bisection` returns, or the error it exits with. */
  function Bisect(f: real -> real, a: real, b: real, p: LegacyParams): Result {
    var f0 := f(a);
    if Abs(f0) < p.ftol then Root(a)
    else
      var f1 := f(b);
      if Abs(f1) < p.ftol then Root(b)
      else if f0 * f1 > 0.0 then Fatal(LegacyError.RootNotBracketed)
      else match Loop(f, p.xtol, p.ftol, p.itmax, Bracket(a, b, f0, f1), 0)
        case Found(_, x, _) => Root(x)
        case Exhausted(_) => Fatal(LegacyError.MaxIter)
  }

  /** The endpoints are tried first, `a` before `b`; an unbracketed interval is an error;
      any other error is running out of iterations; a root found by the loop lies in
      `[a, b]`. */
  lemma BisectResult(f: real -> real, a: real, b: real, p: LegacyParams)
    ensures var res := Bisect(f, a, b, p);
      && (Abs(f(a)) < p.ftol ==> res == Root(a))
      && (p.ftol <= Abs(f(a)) && Abs(f(b)) < p.ftol ==> res == Root(b))
      && (res == Fatal(LegacyError.RootNotBracketed) <==> p.ftol <= Abs(f(a)) && p.ftol <= Abs(f(b)) && f(a) * f(b) > 0.0)
      && (res.Fatal? ==> res.error == LegacyError.RootNotBracketed || res.error == LegacyError.MaxIter)
      && (res.Root? ==> Within(res.x, a, b))
  {
    if p.ftol <= Abs(f(a)) && p.ftol <= Abs(f(b)) && f(a) * f(b) <= 0.0 {
      LoopResult(f, p.xtol, p.ftol, p.itmax, Bracket(a, b, f(a), f(b)), 0);
    }
  }

  /** An interval narrower than `xtol * 2^itmax` always yields a root. */
  lemma BisectWithinBudget(f: real -> real, a: real, b: real, p: LegacyParams)
    requires 0 < p.itmax
    requires Abs(b - a) < p.xtol * Pow2(p.itmax)
    requires f(a) * f(b) <= 0.0
    ensures Bisect(f, a, b, p).Root?
  {
    ConvergesWithinBudget(f, p.xtol, p.ftol, p.itmax, Bracket(a, b, f(a), f(b)), 0);
  }

  /** With a positive `ftol`, the root returned has a residual below `ftol` or a sign
      change of `f` within `xtol` of it. */
  lemma BisectAccuracy(f: real -> real, a: real, b: real, p: LegacyParams)
    requires 0.0 < p.ftol
    ensures var res := Bisect(f, a, b, p);
      res.Root? ==> Accurate(f, p.xtol, p.ftol, res.x, f(res.x))
  {
    var f0, f1 := f(a), f(b);
    if p.ftol <= Abs(f0) && p.ftol <= Abs(f1) && f0 * f1 <= 0.0 {
      OppositeSignsFromBounds(f0, f1);
      var s := Bracket(a, b, f0, f1);
      LoopResult(f, p.xtol, p.ftol, p.itmax, s, 0);
      LoopAccuracy(f, p.xtol, p.ftol, p.itmax, s, 0);
    }
  }

  /** Non-zero values whose product is not positive have a negative product. */
  lemma OppositeSignsFromBounds(x: real, y: real)
    requires x != 0.0 && y != 0.0 && x * y <= 0.0
    ensures x * y < 0.0
  {
    if x * y == 0.0 {
      if 0.0 < x && 0.0 < y {
        MulPos(x, y);
      } else if x < 0.0 && y < 0.0 {
        MulPos(-x, -y);
      } else if x < 0.0 {
        MulPos(-x, y);
      } else {
        MulPos(x, -y);
      }
      assert false;
    }
  }

  /** `roots_bisection`. A call of `roots_error` ends the process; here it ends the
      method with a `Fatal` result. */
  method RootsBisection(f: real -> real, a: real, b: real, p: LegacyParams) returns (res: Result, ghost evals: nat)
    ensures res == Bisect(f, a, b, p)
    ensures evals <= p.itmax + 2
  {
    // Step 1: check if a is the root
    var x0 := a;
    var f0 := f(x0);
    evals := 1;
    if Abs(f0) < p.ftol {
      return Root(x0), evals;
    }
    // Step 2: check if b is the root
    var x1 := b;
    var f1 := f(x1);
    evals := 2;
    if Abs(f1) < p.ftol {
      return Root(x1), evals;
    }
    // Step 3: the root must be in [a, b]
    if f0 * f1 > 0.0 {
      return Fatal(LegacyError.RootNotBracketed), evals;
    }
    // Step 4: bisection
    var it := 0;
    while it < p.itmax
      invariant it <= p.itmax
      invariant Loop(f, p.xtol, p.ftol, p.itmax, Bracket(x0, x1, f0, f1), it) == Loop(f, p.xtol, p.ftol, p.itmax, Bracket(a, b, f(a), f(b)), 0)
      invariant evals == it + 2
      decreases p.itmax - it
    {
      ghost var y0, y1, g0, g1 := x0, x1, f0, f1;
      // Step 4.a: the midpoint
      var xm := (x0 + x1) / 2.0;
      var fm := f(xm);
      evals := evals + 1;
      // Step 4.b: keep the half with the sign change
      if f0 * fm < 0.0 {
        x1, f1 := xm, fm;
      } else {
        x0, f0 := xm, fm;
      }
      assert Bracket(x0, x1, f0, f1) == Halve(f, y0, y1, g0, g1);
      // Step 4.c: converged?
      if Abs(fm) < p.ftol || Abs(x1 - x0) < p.xtol {
        var x := if Abs(f0) < Abs(f1) then x0 else x1;
        assert Step(f, p.xtol, p.ftol, y0, y1, g0, g1) == Converged(x, if Abs(f0) < Abs(f1) then f0 else f1);
        return Root(x), evals;
      }
      assert Step(f, p.xtol, p.ftol, y0, y1, g0, g1) == Next(Bracket(x0, x1, f0, f1));
      it := it + 1;
    }
    // Step 5: out of iterations
    return Fatal(LegacyError.MaxIter), evals;
  }
}

=== FILE: dekker.dfy ===
/** `roots_dekker` (roots/src/roots_dekker.c): a secant step safeguarded by the midpoint
    of `b` and an extra point `d`. */
module Dekker {
  import opened Arith
  import opened Roots
  import opened Utils
  import opened Validator

  /** The loop's locals: the bracket `a`, `b` with its values, and the point `d`. */
  datatype State = State(a: real, b: real, d: real, fa: real, fb: real)

  /** Steps 3.a-3.c: the secant value `s` is taken only when it lies strictly between `b`
      and the midpoint `m = (b + d)/2`; otherwise, and whenever `fa == fb`, the midpoint is. */
  function Trial(a: real, b: real, d: real, fa: real, fb: real): (c: real)
    ensures Within(c, b, (b + d) / 2.0)
    ensures c != (b + d) / 2.0 ==> fa != fb && c == b - fb * (b - a) / (fb - fa) && b < c < (b + d) / 2.0
    ensures fa != fb && b < b - fb * (b - a) / (fb - fa) < (b + d) / 2.0 ==> c == b - fb * (b - a) / (fb - fa)
  {
    var m := (b + d) / 2.0;
    var s := if fa != fb then b - fb * (b - a) / (fb - fa) else m;
    if s > b && s < m then s else m
  }

  /** Steps 3.d-3.f: evaluate `f` at the trial point, replace `b` when `fa*fb < 0` and
      otherwise move `b` into `d` and replace `a`, then keep the better estimate in `b`. */
  function Update(f: real -> real, a: real, b: real, d: real, fa: real, fb: real): State {
    var c := Trial(a, b, d, fa, fb);
    var fc := f(c);
    var t := if fa * fb < 0.0 then Bracket(a, c, fa, fc) else Bracket(c, b, fc, fb);
    var u := BestLast(t);
    State(u.a, u.b, if fa * fb < 0.0 then d else b, u.fa, u.fb)
  }

  /** One pass of the loop: update, then stop when `|b - a| < tol` or `fb == 0`. */
  function Step(f: real -> real, tol: real, a: real, b: real, d: real, fa: real, fb: real): Pass<State> {
    var t := Update(f, a, b, d, fa, fb);
    if Abs(t.b - t.a) < tol || t.fb == 0.0 then Converged(t.b, t.fb) else Next(t)
  }

  /** The update keeps `fa == f(a)` and `fb == f(b)`, puts the better estimate in `b`, and
      replaces exactly the endpoint the `fa*fb < 0` test selects, moving `b` into `d` in
      the other case. */
  lemma UpdateKeepsValues(f: real -> real, a: real, b: real, d: real, fa: real, fb: real)
    requires fa == f(a) && fb == f(b)
    ensures var t := Update(f, a, b, d, fa, fb);
      var c := Trial(a, b, d, fa, fb);
      && t.fa == f(t.a) && t.fb == f(t.b)
      && Abs(t.fb) <= Abs(t.fa)
      && (fa * fb < 0.0 ==> t.d == d && {t.a, t.b} == {a, c})
      && (fa * fb >= 0.0 ==> t.d == b && {t.a, t.b} == {c, b})
  {
  }

  /** At every convergence check `|fb| <= |fa|`, so the reported root is the endpoint with
      the smaller residual; the residual is `f` at the root. */
  lemma StepReportsBetterEnd(f: real -> real, tol: real, a: real, b: real, d: real, fa: real, fb: real)
    requires fa == f(a) && fb == f(b)
    ensures var t := Update(f, a, b, d, fa, fb);
      match Step(f, tol, a, b, d, fa, fb)
      case Converged(x, fx) =>
        x == t.b && fx == f(x) && Abs(fx) <= Abs(f(t.a)) && (Abs(t.b - t.a) < tol || fx == 0.0)
      case Next(u) => u == t && tol <= Abs(u.b - u.a) && u.fb != 0.0
  {
    UpdateKeepsValues(f, a, b, d, fa, fb);
  }

  /** The loop `for (n_iters = n; n_iters < iter_max; n_iters++)`. */
  function Loop(f: real -> real, tol: real, iterMax: nat, s: State, n: nat): Outcome
    decreases iterMax - n
  {
    if iterMax <= n then Exhausted(n)
    else match Step(f, tol, s.a, s.b, s.d, s.fa, s.fb)
      case Converged(x, fx) => Found(n, x, fx)
      case Next(t) => Loop(f, tol, iterMax, t, n + 1)
  }

  /** The loop ends by convergence below `iterMax`, reporting `f` at the root, or with
      the counter at `iterMax`. */
  lemma {:induction false} LoopResult(f: real -> real, tol: real, iterMax: nat, s: State, n: nat)
    requires n <= iterMax
    requires s.fa == f(s.a) && s.fb == f(s.b)
    ensures match Loop(f, tol, iterMax, s, n)
      case Found(k, x, fx) => n <= k < iterMax && fx == f(x)
      case Exhausted(k) => k == iterMax
    decreases iterMax - n
  {
    if n < iterMax {
      StepReportsBetterEnd(f, tol, s.a, s.b, s.d, s.fa, s.fb);
      UpdateKeepsValues(f, s.a, s.b, s.d, s.fa, s.fb);
      match Step(f, tol, s.a, s.b, s.d, s.fa, s.fb)
      case Converged(_, _) =>
      case Next(t) => LoopResult(f, tol, iterMax, t, n + 1);
    }
  }

  /** The record `roots_dekker` leaves behind; `d` starts at the validated `a`. */
  function Solve(f: real -> real, a: real, b: real, p: Params): Params {
    var p1 := Start(p, "Dekker's", a, b);
    var v := Validate(f, a, b, p.xtol, p.ftol);
    if v.Proceed? then Conclude(p1, Loop(f, p.tol, p.iterMax, State(v.s.a, v.s.b, v.s.a, v.s.fa, v.s.fb), 0))
    else Record(p1, v)
  }

  /** What the caller can read from the record afterwards. */
  lemma SolveResult(f: real -> real, a: real, b: real, p: Params)
    ensures var q := Solve(f, a, b, p);
      && q.errorKey != Continue
      && q.methodName == "Dekker's" && q.a == a && q.b == b
      && q.tol == p.tol && q.xtol == p.xtol && q.ftol == p.ftol && q.iterMax == p.iterMax
      && (q.errorKey == RootNotBracketed <==> Validate(f, a, b, p.xtol, p.ftol).Unbracketed?)
      && (!Validate(f, a, b, p.xtol, p.ftol).Proceed? ==> q.errorKey == Status(Validate(f, a, b, p.xtol, p.ftol)) && q.nIters == p.nIters)
      && (q.errorKey == Success ==> q.residual == f(q.root))
      && (q.errorKey == MaxIter ==> q.nIters == p.iterMax)
  {
    var v := Validate(f, a, b, p.xtol, p.ftol);
    if v.Proceed? {
      LoopResult(f, p.tol, p.iterMax, State(v.s.a, v.s.b, v.s.a, v.s.fa, v.s.fb), 0);
    }
  }

  /** The comment on `d` asks for `f(d)*f(b) < 0`, but the update tests `fa*fb` where the
      method tests the new value: for f(x) = x - 1.5 on [0, 2] the first step already
      leaves `a`, `b` and `d` all on the negative side. */
  lemma SignChangeNotKept()
    ensures var f := (x: real) => x - 1.5;
      && Validate(f, 0.0, 2.0, 0.1, 0.1) == Proceed(Bracket(0.0, 2.0, -1.5, 0.5))
      && Step(f, 0.1, 0.0, 2.0, 0.0, -1.5, 0.5) == Next(State(0.0, 1.0, 0.0, -1.5, -0.5))
      && f(0.0) * f(1.0) > 0.0
  {
    var f := (x: real) => x - 1.5;
    assert Trial(0.0, 2.0, 0.0, -1.5, 0.5) == 1.0;
  }

  /** Steps 3.a-3.h of `roots_dekker`: one pass of the loop on the locals `a`, `b`, `d`,
      `fa`, `fb`, returning the root and residual to store or the updated locals. */
  method Iteration(f: real -> real, tol: real, a0: real, b0: real, d0: real, fa0: real, fb0: real)
    returns (step: Pass<State>, ghost evals: nat)
    ensures step == Step(f, tol, a0, b0, d0, fa0, fb0)
    ensures evals == 1
  {
    var a, b, d, fa, fb := a0, b0, d0, fa0, fb0;
    // Step 3.a-3.c: midpoint, secant value, next guess
    var m := (b + d) / 2.0;
    var s := if fa != fb then b - fb * (b - a) / (fb - fa) else m;
    var c := if s > b && s < m then s else m;
    // Step 3.d
    var fc := f(c);
    evals := 1;
    // Step 3.e
    if fa * fb < 0.0 {
      b := c;
      fb := fc;
    } else {
      d := b;
      a := c;
      fa := fc;
    }
    // Step 3.f
    a, b, fa, fb := EnsureBIsClosestToRoot(a, b, fa, fb);
    assert Update(f, a0, b0, d0, fa0, fb0) == State(a, b, d, fa, fb);
    // Step 3.h
    if Abs(b - a) < tol || fb == 0.0 {
      return Converged(b, fb), evals;
    }
    step := Next(State(a, b, d, fa, fb));
  }

  /** Step 3 of `roots_dekker`: the iterations, started on a validated bracket. */
  method Iterate(f: real -> real, a0: real, b0: real, fa0: real, fb0: real, r: RootsParams)
    returns (status: RootsError, ghost evals: nat)
    modifies r
    ensures r.Value() == Conclude(old(r.Value()), Loop(f, old(r.tol), old(r.iterMax), State(a0, b0, a0, fa0, fb0), 0))
    ensures status == r.errorKey
    ensures evals <= r.iterMax
  {
    ghost var p1 := r.Value();
    var a, b, fa, fb := a0, b0, fa0, fb0;
    // Step 2: d starts at a
    var d := a;
    evals := 0;
    r.nIters := 0;
    while r.nIters < r.iterMax
      invariant r.Value() == p1.(nIters := r.nIters)
      invariant r.nIters <= r.iterMax
      invariant Loop(f, r.tol, r.iterMax, State(a, b, d, fa, fb), r.nIters) == Loop(f, r.tol, r.iterMax, State(a0, b0, a0, fa0, fb0), 0)
      invariant evals == r.nIters
      decreases r.iterMax - r.nIters
    {
      var step, stepEvals := Iteration(f, r.tol, a, b, d, fa, fb);
      evals := evals + stepEvals;
      match step
      case Converged(x, fx) =>
        r.root := x;
        r.residual := fx;
        r.errorKey := Success;
        return r.errorKey, evals;
      case Next(t) =>
        a, b, d, fa, fb := t.a, t.b, t.d, t.fa, t.fb;
      r.nIters := r.nIters + 1;
    }
    // Step 4: out of iterations
    r.errorKey := MaxIter;
    status := r.errorKey;
  }

  /** `roots_dekker`. */
  method RootsDekker(f: real -> real, a0: real, b0: real, r: RootsParams)
    returns (status: RootsError, ghost evals: nat)
    modifies r
    ensures r.Value() == Solve(f, a0, b0, old(r.Value()))
    ensures status == r.errorKey
    ensures evals <= r.iterMax + 2
  {
    // Step 0: record the method and the caller's bracket
    r.methodName := "Dekker's";
    r.a := a0;
    r.b := b0;
    // Step 1: validate the bracket; compute fa and fb
    var check, a, b, fa, fb;
    check, a, b, fa, fb, evals := CheckABComputeFaFb(f, a0, b0, 0.0, 0.0, r);
    if IsTerminal(check) {
      return r.errorKey, evals;
    }
    // Steps 2-4
    ghost var loopEvals;
    status, loopEvals := Iterate(f, a, b, fa, fb, r);
    evals := evals + loopEvals;
  }
}

=== FILE: false_position.dfy ===
/** `roots_false_position` (roots/src/roots_false_position.c): regula falsi, with no
    best-estimate reordering inside the loop. */
module FalsePosition {
  import opened Arith
  import opened Roots
  import opened Utils
  import opened Validator

  /** The false-position point `(a*fb - b*fa)/(fb - fa)`. */
  function Point(div: (real, real) -> real, a: real, b: real, fa: real, fb: real): real {
    div(a * fb - b * fa, fb - fa)
  }

  /** When `fa*fb < 0` the false-position point lies in the bracket (strictly inside
      when the bracket is not a single point). */
  lemma PointBetween(div: (real, real) -> real, a: real, b: real, fa: real, fb: real)
    requires IsDivision(div)
    requires fa * fb < 0.0
    ensures Within(Point(div, a, b, fa, fb), a, b)
    ensures a != b ==> Point(div, a, b, fa, fb) != a && Point(div, a, b, fa, fb) != b
  {
    OppositeSigns(fa, fb);
    var c := Point(div, a, b, fa, fb);
    if fa < 0.0 {
      ChordZeroBetween(a, b, fa, fb, c);
    } else {
      ChordZeroBetween(b, a, fb, fa, c);
    }
  }

  /** One pass of the loop: compute `c`, stop when `|c - b| < tol` or `fc == 0`,
      otherwise replace `b` when `fa*fc < 0` and `a` otherwise. */
  function Step(f: real -> real, div: (real, real) -> real, tol: real, a: real, b: real, fa: real, fb: real): Pass<Bracket> {
    var c := Point(div, a, b, fa, fb);
    var fc := f(c);
    if Abs(c - b) < tol || fc == 0.0 then Converged(c, fc)
    else if fa * fc < 0.0 then Next(Bracket(a, c, fa, fc))
    else Next(Bracket(c, b, fc, fb))
  }

  /** A step succeeds, with the false-position point `c` as root and `f(c)` as residual,
      exactly when `|c - b| < tol` or `f(c) == 0`; otherwise it goes on with `c` as one
      endpoint and its value tracked. */
  lemma StepResult(f: real -> real, div: (real, real) -> real, tol: real, a: real, b: real, fa: real, fb: real)
    ensures var c := Point(div, a, b, fa, fb);
      match Step(f, div, tol, a, b, fa, fb)
      case Converged(x, fx) => x == c && fx == f(c) && (Abs(c - b) < tol || f(c) == 0.0)
      case Next(t) =>
        && tol <= Abs(c - b) && f(c) != 0.0
        && (t.a == c || t.b == c)
        && (fa == f(a) && fb == f(b) ==> t.fa == f(t.a) && t.fb == f(t.b))
  {
  }

  /** Tracked values and a strict sign change survive a step, the new bracket is nested
      in the old one and exactly one endpoint moves, without reordering. */
  lemma StepKeepsBracket(f: real -> real, div: (real, real) -> real, tol: real, a: real, b: real, fa: real, fb: real)
    requires IsDivision(div)
    requires fa == f(a) && fb == f(b) && fa * fb < 0.0
    ensures match Step(f, div, tol, a, b, fa, fb)
      case Converged(x, fx) => fx == f(x) && Within(x, a, b)
      case Next(t) =>
        && t.fa == f(t.a) && t.fb == f(t.b)
        && t.fa * t.fb < 0.0
        && Within(t.a, a, b) && Within(t.b, a, b)
        && ((t.a == a && t.b == Point(div, a, b, fa, fb)) || (t.a == Point(div, a, b, fa, fb) && t.b == b))
  {
    PointBetween(div, a, b, fa, fb);
    var c := Point(div, a, b, fa, fb);
    var fc := f(c);
    if !(Abs(c - b) < tol || fc == 0.0) && !(fa * fc < 0.0) {
      SignChangeMoves(fa, fb, fc);
    }
  }

  /** The loop `for (n_iters = n; n_iters < iter_max; n_iters++)`. */
  function Loop(f: real -> real, div: (real, real) -> real, tol: real, iterMax: nat, s: Bracket, n: nat): Outcome
    decreases iterMax - n
  {
    if iterMax <= n then Exhausted(n)
    else match Step(f, div, tol, s.a, s.b, s.fa, s.fb)
      case Converged(x, fx) => Found(n, x, fx)
      case Next(t) => Loop(f, div, tol, iterMax, t, n + 1)
  }

  /** The loop ends by convergence in an iteration below `iterMax`, with the residual
      of the reported root, or with the counter at `iterMax`. */
  lemma {:induction false} LoopResult(f: real -> real, div: (real, real) -> real, tol: real, iterMax: nat, s: Bracket, n: nat)
    requires n <= iterMax
    ensures match Loop(f, div, tol, iterMax, s, n)
      case Found(k, x, fx) => n <= k < iterMax && fx == f(x)
      case Exhausted(k) => k == iterMax
    decreases iterMax - n
  {
    if n < iterMax {
      match Step(f, div, tol, s.a, s.b, s.fa, s.fb)
      case Converged(_, _) =>
      case Next(t) => LoopResult(f, div, tol, iterMax, t, n + 1);
    }
  }

  /** Started from a strict sign change, false position never reports a root outside
      the bracket it started from. */
  lemma {:induction false} LoopStaysInBracket(f: real -> real, div: (real, real) -> real, tol: real, iterMax: nat, s: Bracket, n: nat)
    requires IsDivision(div)
    requires s.fa == f(s.a) && s.fb == f(s.b) && s.fa * s.fb < 0.0
    ensures Loop(f, div, tol, iterMax, s, n).Found? ==> Within(Loop(f, div, tol, iterMax, s, n).root, s.a, s.b)
    decreases iterMax - n
  {
    if n < iterMax {
      StepKeepsBracket(f, div, tol, s.a, s.b, s.fa, s.fb);
      match Step(f, div, tol, s.a, s.b, s.fa, s.fb)
      case Converged(_, _) =>
      case Next(t) => LoopStaysInBracket(f, div, tol, iterMax, t, n + 1);
    }
  }

  /** The record `roots_false_position` leaves behind, from the record it was given. */
  function Solve(f: real -> real, div: (real, real) -> real, a: real, b: real, p: Params): Params {
    var p1 := Start(p, "False position", a, b);
    var v := Validate(f, a, b, p.xtol, p.ftol);
    if v.Proceed? then Conclude(p1, Loop(f, div, p.tol, p.iterMax, v.s, 0))
    else Record(p1, v)
  }

  /** What the caller can read from the record afterwards. */
  lemma SolveResult(f: real -> real, div: (real, real) -> real, a: real, b: real, p: Params)
    ensures var q := Solve(f, div, a, b, p);
      && q.errorKey != Continue
      && q.methodName == "False position" && q.a == a && q.b == b
      && q.tol == p.tol && q.xtol == p.xtol && q.ftol == p.ftol && q.iterMax == p.iterMax
      && (q.errorKey == RootNotBracketed <==> Validate(f, a, b, p.xtol, p.ftol).Unbracketed?)
      && (!Validate(f, a, b, p.xtol, p.ftol).Proceed? ==> q.errorKey == Status(Validate(f, a, b, p.xtol, p.ftol)) && q.nIters == p.nIters)
      && (q.errorKey == Success ==> q.residual == f(q.root))
      && (q.errorKey == MaxIter ==> q.nIters == p.iterMax)
  {
    var v := Validate(f, a, b, p.xtol, p.ftol);
    if v.Proceed? {
      LoopResult(f, div, p.tol, p.iterMax, v.s, 0);
    }
  }

  /** With a positive `ftol`, a root reported by the loop lies within the caller's bracket. */
  lemma SolveStaysInBracket(f: real -> real, div: (real, real) -> real, a: real, b: real, p: Params)
    requires IsDivision(div) && 0.0 < p.ftol
    requires Validate(f, a, b, p.xtol, p.ftol).Proceed?
    ensures var q := Solve(f, div, a, b, p);
      q.errorKey == Success ==> Within(q.root, a, b)
  {
    var v := Validate(f, a, b, p.xtol, p.ftol);
    ProceedHasStrictSignChange(f, a, b, p.xtol, p.ftol);
    LoopStaysInBracket(f, div, p.tol, p.iterMax, v.s, 0);
  }

  /** Step 2 of `roots_false_position`: the false-position iterations, started on a
      validated bracket with `nIters` counting them. */
  method Iterate(f: real -> real, div: (real, real) -> real, a0: real, b0: real, fa0: real, fb0: real, r: RootsParams)
    returns (status: RootsError, ghost evals: nat)
    modifies r
    ensures r.Value() == Conclude(old(r.Value()), Loop(f, div, old(r.tol), old(r.iterMax), Bracket(a0, b0, fa0, fb0), 0))
    ensures status == r.errorKey
    ensures evals <= r.iterMax
  {
    ghost var p1 := r.Value();
    var a, b, fa, fb := a0, b0, fa0, fb0;
    evals := 0;
    r.nIters := 0;
    while r.nIters < r.iterMax
      invariant r.Value() == p1.(nIters := r.nIters)
      invariant r.nIters <= r.iterMax
      invariant Loop(f, div, r.tol, r.iterMax, Bracket(a, b, fa, fb), r.nIters) == Loop(f, div, r.tol, r.iterMax, Bracket(a0, b0, fa0, fb0), 0)
      invariant evals == r.nIters
      decreases r.iterMax - r.nIters
    {
      ghost var a1, b1, fa1, fb1 := a, b, fa, fb;
      var c := div(a * fb - b * fa, fb - fa);
      var fc := f(c);
      evals := evals + 1;
      if Abs(c - b) < r.tol || fc == 0.0 {
        assert Step(f, div, r.tol, a1, b1, fa1, fb1) == Converged(c, fc);
        r.root := c;
        r.residual := fc;
        r.errorKey := Success;
        return r.errorKey, evals;
      }
      if fa * fc < 0.0 {
        b := c;
        fb := fc;
      } else {
        a := c;
        fa := fc;
      }
      assert Step(f, div, r.tol, a1, b1, fa1, fb1) == Next(Bracket(a, b, fa, fb));
      r.nIters := r.nIters + 1;
    }
    // Step 3: out of iterations
    r.errorKey := MaxIter;
    status := r.errorKey;
  }

  /** `roots_false_position`. */
  method RootsFalsePosition(f: real -> real, div: (real, real) -> real, a0: real, b0: real, r: RootsParams)
    returns (status: RootsError, ghost evals: nat)
    modifies r
    ensures r.Value() == Solve(f, div, a0, b0, old(r.Value()))
    ensures status == r.errorKey
    ensures evals <= r.iterMax + 2
  {
    // Step 0: record the method and the caller's bracket
    r.methodName := "False position";
    r.a := a0;
    r.b := b0;
    // Step 1: validate the bracket; compute fa and fb
    var check, a, b, fa, fb;
    check, a, b, fa, fb, evals := CheckABComputeFaFb(f, a0, b0, 0.0, 0.0, r);
    if IsTerminal(check) {
      return r.errorKey, evals;
    }
    // Steps 2 and 3
    ghost var loopEvals;
    status, loopEvals := Iterate(f, div, a, b, fa, fb, r);
    evals := evals + loopEvals;
  }
}

=== FILE: legacy.dfy ===
/** Status codes and the steering record of the older API (include/roots.h), and what an
    older-API solver call ends in. */
module Legacy {

  /** `roots_error_t` of the older API. */
  datatype LegacyError = Abort | Success | RootNotBracketed | MaxIter

  /** The integer C gives each enumerator: `roots_error_abort = -1` and the rest in order. */
  function Code(e: LegacyError): (k: int)
    ensures -1 <= k <= 2
    ensures k < 0 <==> e == Abort
    ensures k == 0 <==> e == Success
  {
    match e
    case Abort => -1
    case Success => 0
    case RootNotBracketed => 1
    case MaxIter => 2
  }

  /** The read-only `roots_params` of the older API; `itmax` is unsigned. */
  datatype LegacyParams = LegacyParams(itmax: nat, xtol: real, ftol: real)

  /** An older-API solver either returns a root or reports an error through `roots_error`,
      which ends the process with the error's code as exit status. */
  datatype Result = Root(x: real) | Fatal(error: LegacyError)

  /** The exit status of the process after a `Fatal` result; `roots_error` exits with the
      code it is given unless that code is `roots_success` (return) or `roots_error_abort`. */
  function ExitStatus(r: Result): (k: int)
    requires r.Fatal? && r.error != Success && r.error != Abort
    ensures 0 < k && k == Code(r.error)
  {
    Code(r.error)
  }
}

=== FILE: legacy_secant.dfy ===
/** `roots_secant` of the older API (src/roots_secant.c): the same secant iteration as the
    newer API, without its bracket ordering and width check, returning the root as a value
    and reporting errors through `roots_error`. */
module LegacySecant {
  import opened Arith
  import opened Roots
  import opened Utils
  import opened Legacy
  import Validator
  import Secant

  /** What the older `roots_secant` returns, or the error it exits with. Steps 4.a-4.c
      are `Secant.Step` on `(x0, x1, f0, f1)`. */
  function Run(f: real -> real, div: (real, real) -> real, a: real, b: real, p: LegacyParams): Result {
    var f0 := f(a);
    if Abs(f0) < p.ftol then Root(a)
    else
      var f1 := f(b);
      if Abs(f1) < p.ftol then Root(b)
      else if f0 * f1 > 0.0 then Fatal(LegacyError.RootNotBracketed)
      else match Secant.Loop(f, div, p.xtol, p.ftol, p.itmax, Bracket(a, b, f0, f1), 0)
        case Found(_, x, _) => Root(x)
        case Exhausted(_) => Fatal(LegacyError.MaxIter)
  }

  /** The endpoints are tried first, `a` before `b`; an unbracketed interval is an error;
      any other error is running out of iterations. */
  lemma RunResult(f: real -> real, div: (real, real) -> real, a: real, b: real, p: LegacyParams)
    ensures var res := Run(f, div, a, b, p);
      && (Abs(f(a)) < p.ftol ==> res == Root(a))
      && (p.ftol <= Abs(f(a)) && Abs(f(b)) < p.ftol ==> res == Root(b))
      && (res == Fatal(LegacyError.RootNotBracketed) <==> p.ftol <= Abs(f(a)) && p.ftol <= Abs(f(b)) && f(a) * f(b) > 0.0)
      && (res.Fatal? ==> res.error == LegacyError.RootNotBracketed || res.error == LegacyError.MaxIter)
  {
    if p.ftol <= Abs(f(a)) && p.ftol <= Abs(f(b)) && f(a) * f(b) <= 0.0 {
      Secant.LoopResult(f, div, p.xtol, p.ftol, p.itmax, Bracket(a, b, f(a), f(b)), 0);
    }
  }

  /** With a positive `ftol`, once both endpoint checks fail and the interval brackets a
      sign change, `f1 - f0` is non-zero and the first secant point lies in `[a, b]`. */
  lemma FirstPointInside(f: real -> real, div: (real, real) -> real, a: real, b: real, ftol: real)
    requires IsDivision(div) && 0.0 < ftol
    requires ftol <= Abs(f(a)) && ftol <= Abs(f(b)) && f(a) * f(b) <= 0.0
    ensures f(b) - f(a) != 0.0 && Within(Secant.Point(div, a, b, f(a), f(b)), a, b)
  {
    var f0, f1 := f(a), f(b);
    if f0 < 0.0 {
      if f1 < 0.0 {
        MulPos(-f0, -f1);
        assert false;
      }
      MulPos(-f0, f1);
    } else {
      if 0.0 < f1 {
        MulPos(f0, f1);
        assert false;
      }
      MulPos(f0, -f1);
    }
    Secant.PointIsChordZero(div, a, b, f0, f1);
  }

  /** When `b` is already the better end and the interval is at least `xtol` wide, the
      newer API's validator neither reorders nor stops early, and both versions report the
      same root, or both run out of iterations. */
  lemma AgreesWithNewerApi(f: real -> real, div: (real, real) -> real, a: real, b: real, p: Params)
    requires Abs(f(b)) <= Abs(f(a)) && p.xtol <= Abs(a - b)
    ensures var q := Secant.Solve(f, div, a, b, p);
      var res := Run(f, div, a, b, LegacyParams(p.iterMax, p.xtol, p.ftol));
      && (res.Root? <==> q.errorKey == RootsError.Success)
      && (res.Root? ==> res.x == q.root)
      && (res == Fatal(LegacyError.MaxIter) <==> q.errorKey == RootsError.MaxIter)
  {
    var v := Validator.Validate(f, a, b, p.xtol, p.ftol);
    if v.Proceed? {
      assert v.s == Bracket(a, b, f(a), f(b));
    }
  }

  /** The older `roots_secant`. A call of `roots_error` ends the process; here it ends the
      method with a `Fatal` result. */
  method RootsSecant(f: real -> real, div: (real, real) -> real, a: real, b: real, p: LegacyParams)
    returns (res: Result, ghost evals: nat)
    ensures res == Run(f, div, a, b, p)
    ensures evals <= p.itmax + 2
  {
    // Step 1: check if a is the root
    var x0 := a;
    var f0 := f(x0);
    evals := 1;
    if Abs(f0) < p.ftol {
      return Root(x0), evals;
    }
    // Step 2: check if b is the root
    var x1 := b;
    var f1 := f(x1);
    evals := 2;
    if Abs(f1) < p.ftol {
      return Root(x1), evals;
    }
    // Step 3: the root must be in [a, b]
    if f0 * f1 > 0.0 {
      return Fatal(LegacyError.RootNotBracketed), evals;
    }
    // Step 4: secant iterations
    var it := 0;
    while it < p.itmax
      invariant it <= p.itmax
      invariant Secant.Loop(f, div, p.xtol, p.ftol, p.itmax, Bracket(x0, x1, f0, f1), it) == Secant.Loop(f, div, p.xtol, p.ftol, p.itmax, Bracket(a, b, f(a), f(b)), 0)
      invariant evals == it + 2
      decreases p.itmax - it
    {
      ghost var y0, y1, g0, g1 := x0, x1, f0, f1;
      // Step 4.a: the new point
      var x2 := x1 - div(f1 * (x1 - x0), f1 - f0);
      var f2 := f(x2);
      evals := evals + 1;
      // Step 4.b: converged?
      if Abs(f2) < p.ftol || Abs(x2 - x1) < p.xtol {
        assert Secant.Step(f, div, p.xtol, p.ftol, y0, y1, g0, g1) == Converged(x2, f2);
        return Root(x2), evals;
      }
      // Step 4.c: shift the points
      x0 := x1;
      f0 := f1;
      x1 := x2;
      f1 := f2;
      assert Secant.Step(f, div, p.xtol, p.ftol, y0, y1, g0, g1) == Next(Bracket(x0, x1, f0, f1));
      it := it + 1;
    }
    // Step 5: out of iterations
    return Fatal(LegacyError.MaxIter), evals;
  }
}

=== FILE: legacy_utils.dfy ===
/** `swap` of the older API (src/utils.h): exchange two doubles through pointers. */
module LegacyUtils {

  /** A `double` the caller owns and passes by pointer. */
  class Cell {
    var value: real

    constructor (v: real)
      ensures value == v
    {
      value := v;
    }
  }

  /** `swap`: the two cells exchange values, and nothing else changes. */
  method Swap(a: Cell, b: Cell)
    modifies a, b
    ensures a.value == old(b.value) && b.value == old(a.value)
  {
    var c := a.value;
    a.value := b.value;
    b.value := c;
  }

  /** Swapping twice restores both values. */
  method SwapTwice(a: Cell, b: Cell)
    modifies a, b
    ensures a.value == old(a.value) && b.value == old(b.value)
  {
    Swap(a, b);
    Swap(a, b);
  }

  /** Swapping a cell with one holding the same value, or with itself, changes nothing. */
  method SwapEqual(a: Cell, b: Cell)
    requires a.value == b.value
    modifies a, b
    ensures a.value == old(a.value) && b.value == old(b.value)
  {
    Swap(a, b);
  }
}

=== FILE: ridder.dfy ===
/** `roots_ridder` (roots/src/roots_ridder.c): the midpoint, then the point of an
    exponential fit through the midpoint, then a three-way update of the bracket. */
module Ridder {
  import opened Arith
  import opened Roots
  import opened Utils
  import opened Validator

  /** Step 2.c: `c = m + (m - a)*sign(fa - fb)*fm/d` with `d = sqrt(fm*fm - fa*fb)`. */
  function Point(div: (real, real) -> real, sqrt: real -> real, a: real, fa: real, fb: real, m: real, fm: real): real {
    m + div((m - a) * (Sign(fa - fb) as real) * fm, sqrt(fm * fm - fa * fb))
  }

  /** When `fa*fb < 0` the square root `d` exceeds `|fm|`. */
  lemma RootExceedsResidual(sqrt: real -> real, fa: real, fb: real, fm: real)
    requires IsSqrt(sqrt) && fa * fb < 0.0
    ensures Abs(fm) < sqrt(fm * fm - fa * fb)
  {
    AbsMul(fm, fm);
    MulNonneg(Abs(fm), Abs(fm));
    var x := fm * fm - fa * fb;
    RootExceeds(fm, sqrt(x), -(fa * fb));
  }

  /** Since `d > |fm|`, `c` moves away from the midpoint by less than half the bracket,
      so it lies strictly inside it. */
  lemma PointInside(div: (real, real) -> real, sqrt: real -> real, a: real, b: real, fa: real, fb: real, fm: real)
    requires IsDivision(div) && IsSqrt(sqrt)
    requires fa * fb < 0.0 && a != b
    ensures var m := (a + b) / 2.0;
      var c := Point(div, sqrt, a, fa, fb, m, fm);
      Abs(c - m) < Abs(m - a) && Within(c, a, b) && c != a && c != b
  {
    var m := (a + b) / 2.0;
    var d := sqrt(fm * fm - fa * fb);
    RootExceedsResidual(sqrt, fa, fb, fm);
    OppositeSigns(fa, fb);
    var sigma := Sign(fa - fb) as real;
    var g := sigma * fm;
    assert Abs(g) == Abs(fm);
    var h := m - a;
    var q := Point(div, sqrt, a, fa, fb, m, fm) - m;
    assert q * d == h * g;
    QuotientShrinks(q, d, h, g);
  }

  /** Step 2.e as written: `(m, c)` when `fm*fc < 0`, otherwise `c` replaces `a` when
      `fa*fc < 0` and `b` when not. The new point is always kept; a sign change between
      `m` and `c` is kept; but when there is none, a strict sign change between `a` and `b`
      is never carried over. */
  function Adjust(a: real, b: real, c: real, m: real, fa: real, fb: real, fc: real, fm: real): (t: Bracket)
    ensures t.a == c || t.b == c
    ensures fm * fc < 0.0 ==> {t.a, t.b} == {m, c} && t.fa * t.fb < 0.0
    ensures fa * fb < 0.0 && fm * fc >= 0.0 ==> t.fa * t.fb >= 0.0
  {
    if fm * fc < 0.0 then Bracket(m, c, fm, fc)
    else if fa * fc < 0.0 then
      SharedOpposite(fa, fb, fc);
      Bracket(c, b, fc, fb)
    else Bracket(a, c, fa, fc)
  }

  /** One pass of the loop: stop at the midpoint when `|m - a| < tol` or `fm == 0`, then at
      the new point when `|c - b| < tol` or `fc == 0`; otherwise adjust the bracket and
      keep the better estimate in `b`. */
  function Step(f: real -> real, div: (real, real) -> real, sqrt: real -> real, tol: real, a: real, b: real, fa: real, fb: real): Pass<Bracket> {
    var m := (a + b) / 2.0;
    var fm := f(m);
    if Abs(m - a) < tol || fm == 0.0 then Converged(m, fm)
    else
      var c := Point(div, sqrt, a, fa, fb, m, fm);
      var fc := f(c);
      if Abs(c - b) < tol || fc == 0.0 then Converged(c, fc)
      else Next(BestLast(Adjust(a, b, c, m, fa, fb, fc, fm)))
  }

  /** A step stops at the midpoint exactly when `|m - a| < tol` or `f(m) == 0`, and
      otherwise at the new point exactly when `|c - b| < tol` or `f(c) == 0`, reporting `f`
      there. Going on, it keeps `fa == f(a)` and `fb == f(b)` and the better estimate in
      `b`; the new pair is `m` and `c` (with a strict sign change) when `f(m)*f(c) < 0`,
      else `c` and `b` when `fa*f(c) < 0`, else `a` and `c`. */
  lemma StepResult(f: real -> real, div: (real, real) -> real, sqrt: real -> real, tol: real, a: real, b: real, fa: real, fb: real)
    requires fa == f(a) && fb == f(b)
    ensures var m := (a + b) / 2.0;
      var c := Point(div, sqrt, a, fa, fb, m, f(m));
      match Step(f, div, sqrt, tol, a, b, fa, fb)
      case Converged(x, fx) =>
        && fx == f(x)
        && ((x == m && (Abs(m - a) < tol || f(m) == 0.0))
            || (x == c && tol <= Abs(m - a) && f(m) != 0.0 && (Abs(c - b) < tol || f(c) == 0.0)))
      case Next(t) =>
        && tol <= Abs(m - a) && f(m) != 0.0 && tol <= Abs(c - b) && f(c) != 0.0
        && (t.a == a || t.a == b || t.a == m || t.a == c)
        && (t.b == a || t.b == b || t.b == m || t.b == c)
        && t.fa == f(t.a) && t.fb == f(t.b)
        && Abs(t.fb) <= Abs(t.fa)
        && (f(m) * f(c) < 0.0 ==> {t.a, t.b} == {m, c} && t.fa * t.fb < 0.0)
        && (f(m) * f(c) >= 0.0 && fa * f(c) < 0.0 ==> {t.a, t.b} == {c, b})
        && (f(m) * f(c) >= 0.0 && fa * f(c) >= 0.0 ==> {t.a, t.b} == {a, c})
  {
  }

  /** From a strict sign change every point a step reports or keeps lies in the old bracket. */
  lemma StepStaysInside(f: real -> real, div: (real, real) -> real, sqrt: real -> real, tol: real, a: real, b: real, fa: real, fb: real)
    requires IsDivision(div) && IsSqrt(sqrt)
    requires fa == f(a) && fb == f(b) && fa * fb < 0.0
    ensures match Step(f, div, sqrt, tol, a, b, fa, fb)
      case Converged(x, _) => Within(x, a, b)
      case Next(t) => Within(t.a, a, b) && Within(t.b, a, b)
  {
    StepResult(f, div, sqrt, tol, a, b, fa, fb);
    if a != b {
      PointInside(div, sqrt, a, b, fa, fb, f((a + b) / 2.0));
    }
  }

  /** The method would keep the sign change by replacing `b` when `fa*fc < 0`; the code
      replaces `a`. With f(0) = -4, f(1) = 1.5, f(0.4) = 0.5 and f(2) = 1, the validated
      bracket [0, 2] becomes (2, 0.4), where f is positive at both ends. */
  lemma SignChangeNotKept(div: (real, real) -> real, sqrt: real -> real)
    requires IsDivision(div) && IsSqrt(sqrt)
    ensures var f := (x: real) => if x == 0.0 then -4.0 else if x == 2.0 then 1.0 else if x == 1.0 then 1.5 else 0.5;
      && Validate(f, 0.0, 2.0, 0.1, 0.1) == Proceed(Bracket(0.0, 2.0, -4.0, 1.0))
      && Step(f, div, sqrt, 0.1, 0.0, 2.0, -4.0, 1.0) == Next(Bracket(2.0, 0.4, 1.0, 0.5))
      && f(2.0) * f(0.4) > 0.0
  {
    SquaresDetermine(sqrt(6.25), 2.5);
    assert Point(div, sqrt, 0.0, -4.0, 1.0, 1.0, 1.5) == 0.4;
  }

  /** The loop `for (n_iters = n; n_iters <= iter_max; n_iters++)`: the counter starts at 1
      and runs through `iterMax` inclusive. */
  function Loop(f: real -> real, div: (real, real) -> real, sqrt: real -> real, tol: real, iterMax: nat, s: Bracket, n: nat): Outcome
    decreases iterMax + 1 - n
  {
    if iterMax < n then Exhausted(n)
    else match Step(f, div, sqrt, tol, s.a, s.b, s.fa, s.fb)
      case Converged(x, fx) => Found(n, x, fx)
      case Next(t) => Loop(f, div, sqrt, tol, iterMax, t, n + 1)
  }

  /** The loop converges in an iteration numbered `n` through `iterMax` with `f` at the
      root as residual, or ends with the counter one past `iterMax`. */
  lemma {:induction false} LoopResult(f: real -> real, div: (real, real) -> real, sqrt: real -> real, tol: real, iterMax: nat, s: Bracket, n: nat)
    requires n <= iterMax + 1
    requires s.fa == f(s.a) && s.fb == f(s.b)
    ensures match Loop(f, div, sqrt, tol, iterMax, s, n)
      case Found(k, x, fx) => n <= k <= iterMax && fx == f(x)
      case Exhausted(k) => k == iterMax + 1
    decreases iterMax + 1 - n
  {
    if n <= iterMax {
      match Step(f, div, sqrt, tol, s.a, s.b, s.fa, s.fb)
      case Converged(_, _) =>
      case Next(t) => LoopResult(f, div, sqrt, tol, iterMax, t, n + 1);
    }
  }

  /** The record `roots_ridder` leaves behind. */
  function Solve(f: real -> real, div: (real, real) -> real, sqrt: real -> real, a: real, b: real, p: Params): Params {
    var p1 := Start(p, "Ridder's", a, b);
    var v := Validate(f, a, b, p.xtol, p.ftol);
    if v.Proceed? then Conclude(p1, Loop(f, div, sqrt, p.tol, p.iterMax, v.s, 1))
    else Record(p1, v)
  }

  /** What the caller can read from the record afterwards; note the counter after running
      out of iterations. */
  lemma SolveResult(f: real -> real, div: (real, real) -> real, sqrt: real -> real, a: real, b: real, p: Params)
    ensures var q := Solve(f, div, sqrt, a, b, p);
      && q.errorKey != Continue
      && q.methodName == "Ridder's" && q.a == a && q.b == b
      && q.tol == p.tol && q.xtol == p.xtol && q.ftol == p.ftol && q.iterMax == p.iterMax
      && (q.errorKey == RootNotBracketed <==> Validate(f, a, b, p.xtol, p.ftol).Unbracketed?)
      && (!Validate(f, a, b, p.xtol, p.ftol).Proceed? ==> q.errorKey == Status(Validate(f, a, b, p.xtol, p.ftol)) && q.nIters == p.nIters)
      && (q.errorKey == Success ==> q.residual == f(q.root))
      && (q.errorKey == MaxIter ==> q.nIters == p.iterMax + 1)
  {
    var v := Validate(f, a, b, p.xtol, p.ftol);
    if v.Proceed? {
      LoopResult(f, div, sqrt, p.tol, p.iterMax, v.s, 1);
    }
  }

  /** Steps 2.a-2.f of `roots_ridder`: one pass of the loop on the locals `a`, `b`, `fa`,
      `fb`, returning the root and residual to store or the updated locals. */
  method Iteration(f: real -> real, div: (real, real) -> real, sqrt: real -> real, tol: real, a0: real, b0: real, fa0: real, fb0: real)
    returns (step: Pass<Bracket>, ghost evals: nat)
    ensures step == Step(f, div, sqrt, tol, a0, b0, fa0, fb0)
    ensures 1 <= evals <= 2
  {
    var a, b, fa, fb := a0, b0, fa0, fb0;
    // Step 2.a: the midpoint
    var m := (a + b) / 2.0;
    var fm := f(m);
    evals := 1;
    // Step 2.b
    if Abs(m - a) < tol || fm == 0.0 {
      return Converged(m, fm), evals;
    }
    // Step 2.c: the new point
    var c := Point(div, sqrt, a, fa, fb, m, fm);
    var fc := f(c);
    evals := 2;
    // Step 2.d
    if Abs(c - b) < tol || fc == 0.0 {
      return Converged(c, fc), evals;
    }
    // Step 2.e
    if fm * fc < 0.0 {
      a := m;
      b := c;
      fa := fm;
      fb := fc;
    } else if fa * fc < 0.0 {
      a := c;
      fa := fc;
    } else {
      b := c;
      fb := fc;
    }
    assert Bracket(a, b, fa, fb) == Adjust(a0, b0, c, m, fa0, fb0, fc, fm);
    // Step 2.f
    a, b, fa, fb := EnsureBIsClosestToRoot(a, b, fa, fb);
    step := Next(Bracket(a, b, fa, fb));
  }

  /** Step 2 of `roots_ridder`: the loop on `n_iters`, started on a validated bracket. */
  method Iterate(f: real -> real, div: (real, real) -> real, sqrt: real -> real, a0: real, b0: real, fa0: real, fb0: real, r: RootsParams)
    returns (status: RootsError, ghost evals: nat)
    modifies r
    ensures r.Value() == Conclude(old(r.Value()), Loop(f, div, sqrt, old(r.tol), old(r.iterMax), Bracket(a0, b0, fa0, fb0), 1))
    ensures status == r.errorKey
    ensures evals <= 2 * r.iterMax
  {
    ghost var p1 := r.Value();
    var a, b, fa, fb := a0, b0, fa0, fb0;
    evals := 0;
    r.nIters := 1;
    while r.nIters <= r.iterMax
      invariant r.Value() == p1.(nIters := r.nIters)
      invariant 1 <= r.nIters <= r.iterMax + 1
      invariant Loop(f, div, sqrt, r.tol, r.iterMax, Bracket(a, b, fa, fb), r.nIters) == Loop(f, div, sqrt, r.tol, r.iterMax, Bracket(a0, b0, fa0, fb0), 1)
      invariant evals <= 2 * (r.nIters - 1)
      decreases r.iterMax + 1 - r.nIters
    {
      var step, stepEvals := Iteration(f, div, sqrt, r.tol, a, b, fa, fb);
      evals := evals + stepEvals;
      match step
      case Converged(x, fx) =>
        r.root := x;
        r.residual := fx;
        r.errorKey := Success;
        return r.errorKey, evals;
      case Next(t) =>
        a, b, fa, fb := t.a, t.b, t.fa, t.fb;
      r.nIters := r.nIters + 1;
    }
    // Step 3: out of iterations
    r.errorKey := MaxIter;
    status := r.errorKey;
  }

  /** `roots_ridder`. */
  method RootsRidder(f: real -> real, div: (real, real) -> real, sqrt: real -> real, a0: real, b0: real, r: RootsParams)
    returns (status: RootsError, ghost evals: nat)
    modifies r
    ensures r.Value() == Solve(f, div, sqrt, a0, b0, old(r.Value()))
    ensures status == r.errorKey
    ensures evals <= 2 * r.iterMax + 2
  {
    // Step 0: record the method and the caller's bracket
    r.methodName := "Ridder's";
    r.a := a0;
    r.b := b0;
    // Step 1: validate the bracket; compute fa and fb
    var check, a, b, fa, fb;
    check, a, b, fa, fb, evals := CheckABComputeFaFb(f, a0, b0, 0.0, 0.0, r);
    if IsTerminal(check) {
      return r.errorKey, evals;
    }
    // Steps 2 and 3
    ghost var loopEvals;
    status, loopEvals := Iterate(f, div, sqrt, a, b, fa, fb, r);
    evals := evals + loopEvals;
  }
}

=== FILE: roots.dfy ===
/** Status codes and the parameter/result record of the newer API (roots/include/roots.h),
    plus the shape of one solver iteration shared by all the loops. */
module Roots {

  /** `roots_error_t`. */
  datatype RootsError = Continue | Success | RootNotBracketed | MaxIter

  /** The integer C gives each enumerator: `roots_continue = -1` and the rest in order. */
  function Code(e: RootsError): (k: int)
    ensures -1 <= k <= 2
    ensures k < 0 <==> e == Continue
    ensures k == 0 <==> e == Success
  {
    match e
    case Continue => -1
    case Success => 0
    case RootNotBracketed => 1
    case MaxIter => 2
  }

  /** The solvers' `status >= roots_success` test after validation. */
  predicate IsTerminal(e: RootsError) {
    Code(e) >= Code(Success)
  }

  lemma CodesAreOrdered()
    ensures Code(Continue) < Code(Success) < Code(RootNotBracketed) < Code(MaxIter)
    ensures forall e1: RootsError, e2: RootsError :: Code(e1) == Code(e2) ==> e1 == e2
  {
  }

  /** `roots_continue` is the only status below `roots_success`, so the test above
      means "validation reached a final outcome". */
  lemma OnlyContinueIsNotTerminal(e: RootsError)
    ensures IsTerminal(e) <==> e != Continue
  {
  }

  /** The contents of a `roots_params` record. Besides the declared fields it carries
      `xtol`, `ftol` and `iterMax`, which every solver reads. Counts are unsigned. */
  datatype Params = Params(
    errorKey: RootsError,
    methodName: string,
    nIters: nat,
    maxIters: nat,
    a: real,
    b: real,
    residual: real,
    root: real,
    tol: real,
    xtol: real,
    ftol: real,
    iterMax: nat)

  /** The caller-owned `roots_params` record that the solvers fill in place. */
  class RootsParams {
    var errorKey: RootsError
    var methodName: string
    var nIters: nat
    var maxIters: nat
    var a: real
    var b: real
    var residual: real
    var root: real
    var tol: real
    var xtol: real
    var ftol: real
    var iterMax: nat

    function Value(): Params
      reads this
    {
      Params(errorKey, methodName, nIters, maxIters, a, b, residual, root, tol, xtol, ftol, iterMax)
    }
  }

  /** What one pass of a solver loop decides: stop with `root` and `residual`, or go on from `state`. */
  datatype Pass<S> = Converged(root: real, residual: real) | Next(state: S)

  /** How a solver loop ends: converged in iteration `nIters`, or ran out of iterations
      with the loop counter at `nIters`. */
  datatype Outcome = Found(nIters: nat, root: real, residual: real) | Exhausted(nIters: nat)

  /** The fields a solver loop writes when it ends. */
  function Conclude(p: Params, o: Outcome): Params {
    match o
    case Found(n, x, fx) => p.(nIters := n, root := x, residual := fx, errorKey := Success)
    case Exhausted(n) => p.(nIters := n, errorKey := MaxIter)
  }

  /** The fields every solver writes before validating: the method name and the caller's bracket. */
  function Start(p: Params, name: string, a: real, b: real): Params {
    p.(methodName := name, a := a, b := b)
  }
}

=== FILE: secant.dfy ===
/** `roots_secant` of the newer API (roots/src/roots_secant.c): the secant iteration,
    which keeps the last two points and no bracket. */
module Secant {
  import opened Arith
  import opened Roots
  import opened Utils
  import opened Validator
  import FalsePosition

  /** Step 2.a: `c = b - fb*(b - a)/(fb - fa)`. */
  function Point(div: (real, real) -> real, a: real, b: real, fa: real, fb: real): real {
    b - div(fb * (b - a), fb - fa)
  }

  /** Wherever the denominator is non-zero the secant point is the false-position point,
      the zero of the chord through `(a, fa)` and `(b, fb)`; so from a strict sign change
      it lies between `a` and `b`. */
  lemma PointIsChordZero(div: (real, real) -> real, a: real, b: real, fa: real, fb: real)
    requires IsDivision(div) && fb - fa != 0.0
    ensures Point(div, a, b, fa, fb) == FalsePosition.Point(div, a, b, fa, fb)
    ensures fa * fb < 0.0 ==> Within(Point(div, a, b, fa, fb), a, b)
  {
    TwoChordForms(a, b, fa, fb, div(fb * (b - a), fb - fa), div(a * fb - b * fa, fb - fa));
    if fa * fb < 0.0 {
      FalsePosition.PointBetween(div, a, b, fa, fb);
    }
  }

  /** With a positive `ftol` the validator hands over a strict sign change, so the first
      secant point is well defined and lies within the caller's bracket. */
  lemma FirstPointDefined(f: real -> real, div: (real, real) -> real, a: real, b: real, xtol: real, ftol: real)
    requires IsDivision(div) && 0.0 < ftol
    requires Validate(f, a, b, xtol, ftol).Proceed?
    ensures var s := Validate(f, a, b, xtol, ftol).s;
      s.fb - s.fa != 0.0 && Within(Point(div, s.a, s.b, s.fa, s.fb), a, b)
  {
    var s := Validate(f, a, b, xtol, ftol).s;
    ProceedHasStrictSignChange(f, a, b, xtol, ftol);
    PointIsChordZero(div, s.a, s.b, s.fa, s.fb);
  }

  /** One pass of the loop: stop at `c` when `|fc| < ftol` or `|c - b| < xtol`, otherwise
      shift `(a, fa) <- (b, fb)` and `(b, fb) <- (c, fc)`. */
  function Step(f: real -> real, div: (real, real) -> real, xtol: real, ftol: real, a: real, b: real, fa: real, fb: real): Pass<Bracket> {
    var c := Point(div, a, b, fa, fb);
    var fc := f(c);
    if Abs(fc) < ftol || Abs(c - b) < xtol then Converged(c, fc)
    else Next(Bracket(b, c, fb, fc))
  }

  /** A step either reports the secant point with `f` there as residual and one of the
      two tolerances met, or shifts the pair, with neither tolerance met and no
      reordering. */
  lemma StepResult(f: real -> real, div: (real, real) -> real, xtol: real, ftol: real, a: real, b: real, fa: real, fb: real)
    ensures var c := Point(div, a, b, fa, fb);
      match Step(f, div, xtol, ftol, a, b, fa, fb)
      case Converged(x, fx) => x == c && fx == f(c) && (Abs(fx) < ftol || Abs(x - b) < xtol)
      case Next(t) =>
        && t.a == b && t.fa == fb && t.b == c && t.fb == f(c)
        && ftol <= Abs(t.fb) && xtol <= Abs(t.b - t.a)
  {
  }

  /** The loop `for (n_iters = n; n_iters < iter_max; n_iters++)`. */
  function Loop(f: real -> real, div: (real, real) -> real, xtol: real, ftol: real, iterMax: nat, s: Bracket, n: nat): Outcome
    decreases iterMax - n
  {
    if iterMax <= n then Exhausted(n)
    else match Step(f, div, xtol, ftol, s.a, s.b, s.fa, s.fb)
      case Converged(x, fx) => Found(n, x, fx)
      case Next(t) => Loop(f, div, xtol, ftol, iterMax, t, n + 1)
  }

  /** The loop ends by convergence below `iterMax`, with `f` at the root as residual, or
      with the counter at `iterMax`. */
  lemma {:induction false} LoopResult(f: real -> real, div: (real, real) -> real, xtol: real, ftol: real, iterMax: nat, s: Bracket, n: nat)
    requires n <= iterMax
    ensures match Loop(f, div, xtol, ftol, iterMax, s, n)
      case Found(k, x, fx) => n <= k < iterMax && fx == f(x)
      case Exhausted(k) => k == iterMax
    decreases iterMax - n
  {
    if n < iterMax {
      StepResult(f, div, xtol, ftol, s.a, s.b, s.fa, s.fb);
      match Step(f, div, xtol, ftol, s.a, s.b, s.fa, s.fb)
      case Converged(_, _) =>
      case Next(t) => LoopResult(f, div, xtol, ftol, iterMax, t, n + 1);
    }
  }

  /** The record `roots_secant` leaves behind. */
  function Solve(f: real -> real, div: (real, real) -> real, a: real, b: real, p: Params): Params {
    var p1 := Start(p, "secant", a, b);
    var v := Validate(f, a, b, p.xtol, p.ftol);
    if v.Proceed? then Conclude(p1, Loop(f, div, p.xtol, p.ftol, p.iterMax, v.s, 0))
    else Record(p1, v)
  }

  /** What the caller can read from the record afterwards. */
  lemma SolveResult(f: real -> real, div: (real, real) -> real, a: real, b: real, p: Params)
    ensures var q := Solve(f, div, a, b, p);
      && q.errorKey != Continue
      && q.methodName == "secant" && q.a == a && q.b == b
      && q.tol == p.tol && q.xtol == p.xtol && q.ftol == p.ftol && q.iterMax == p.iterMax
      && (q.errorKey == RootNotBracketed <==> Validate(f, a, b, p.xtol, p.ftol).Unbracketed?)
      && (!Validate(f, a, b, p.xtol, p.ftol).Proceed? ==> q.errorKey == Status(Validate(f, a, b, p.xtol, p.ftol)) && q.nIters == p.nIters)
      && (q.errorKey == Success ==> q.residual == f(q.root))
      && (q.errorKey == MaxIter ==> q.nIters == p.iterMax)
  {
    var v := Validate(f, a, b, p.xtol, p.ftol);
    if v.Proceed? {
      LoopResult(f, div, p.xtol, p.ftol, p.iterMax, v.s, 0);
    }
  }

  /** Step 2 of `roots_secant`: the iterations, started on a validated bracket. */
  method Iterate(f: real -> real, div: (real, real) -> real, a0: real, b0: real, fa0: real, fb0: real, r: RootsParams)
    returns (status: RootsError, ghost evals: nat)
    modifies r
    ensures r.Value() == Conclude(old(r.Value()), Loop(f, div, old(r.xtol), old(r.ftol), old(r.iterMax), Bracket(a0, b0, fa0, fb0), 0))
    ensures status == r.errorKey
    ensures evals <= r.iterMax
  {
    ghost var p1 := r.Value();
    var a, b, fa, fb := a0, b0, fa0, fb0;
    evals := 0;
    r.nIters := 0;
    while r.nIters < r.iterMax
      invariant r.Value() == p1.(nIters := r.nIters)
      invariant r.nIters <= r.iterMax
      invariant Loop(f, div, r.xtol, r.ftol, r.iterMax, Bracket(a, b, fa, fb), r.nIters) == Loop(f, div, r.xtol, r.ftol, r.iterMax, Bracket(a0, b0, fa0, fb0), 0)
      invariant evals == r.nIters
      decreases r.iterMax - r.nIters
    {
      ghost var a1, b1, fa1, fb1 := a, b, fa, fb;
      // Step 2.a: the new point
      var c := b - div(fb * (b - a), fb - fa);
      var fc := f(c);
      evals := evals + 1;
      // Step 2.b
      if Abs(fc) < r.ftol || Abs(c - b) < r.xtol {
        assert Step(f, div, r.xtol, r.ftol, a1, b1, fa1, fb1) == Converged(c, fc);
        r.root := c;
        r.residual := fc;
        r.errorKey := Success;
        return r.errorKey, evals;
      }
      // Step 2.c: shift the points
      a := b;
      b := c;
      fa := fb;
      fb := fc;
      assert Step(f, div, r.xtol, r.ftol, a1, b1, fa1, fb1) == Next(Bracket(a, b, fa, fb));
      r.nIters := r.nIters + 1;
    }
    // Step 3: out of iterations
    r.errorKey := MaxIter;
    status := r.errorKey;
  }

  /** `roots_secant`. */
  method RootsSecant(f: real -> real, div: (real, real) -> real, a0: real, b0: real, r: RootsParams)
    returns (status: RootsError, ghost evals: nat)
    modifies r
    ensures r.Value() == Solve(f, div, a0, b0, old(r.Value()))
    ensures status == r.errorKey
    ensures evals <= r.iterMax + 2
  {
    r.methodName := "secant";
    r.a := a0;
    r.b := b0;
    // Step 1: validate the bracket; compute fa and fb
    var check, a, b, fa, fb;
    check, a, b, fa, fb, evals := CheckABComputeFaFb(f, a0, b0, 0.0, 0.0, r);
    if IsTerminal(check) {
      return r.errorKey, evals;
    }
    // Steps 2 and 3
    ghost var loopEvals;
    status, loopEvals := Iterate(f, div, a, b, fa, fb, r);
    evals := evals + loopEvals;
  }
}

=== FILE: utils.dfy ===
/** The inline helpers of roots/src/utils.h. The C versions write through pointers to the
    caller's locals; here each pointer becomes an in-parameter and an out-parameter. */
module Utils {
  import opened Arith

  /** Two points and the values of f there; `b` is meant to be the better estimate. */
  datatype Bracket = Bracket(a: real, b: real, fa: real, fb: real)

  /** `swap`: exchange two values. */
  method Swap(a: real, b: real) returns (a': real, b': real)
    ensures a' == b && b' == a
  {
    var c := a;
    a' := b;
    b' := c;
  }

  /** Swapping twice gives back both values. */
  method SwapTwice(a: real, b: real) returns (a': real, b': real)
    ensures a' == a && b' == b
  {
    var x, y := Swap(a, b);
    a', b' := Swap(x, y);
  }

  /** `cicle`: the header comment promises `a, b, c = b, c, b`, but the third
      assignment reads the already updated `b`, so `c` keeps its value. */
  method Cicle(a: real, b: real, c: real) returns (a': real, b': real, c': real)
    ensures a' == b && b' == c && c' == c
  {
    a' := b;
    b' := c;
    c' := b';
  }

  /** `sign`: `(x>0) - (x<0)`. The header comment says +1 for zero; the code gives 0. */
  function Sign(x: real): (s: int)
    ensures x > 0.0 ==> s == 1
    ensures x < 0.0 ==> s == -1
    ensures x == 0.0 ==> s == 0
  {
    (if x > 0.0 then 1 else 0) - (if x < 0.0 then 1 else 0)
  }

  /** What `ensure_b_is_closest_to_root` leaves behind: the pair with the smaller |f| last. */
  function BestLast(s: Bracket): (t: Bracket)
    ensures Abs(t.fb) <= Abs(t.fa)
    ensures t == s || t == Bracket(s.b, s.a, s.fb, s.fa)
    ensures Abs(s.fb) <= Abs(s.fa) ==> t == s
    ensures t.fa * t.fb == s.fa * s.fb
  {
    if Abs(s.fa) < Abs(s.fb) then Bracket(s.b, s.a, s.fb, s.fa) else s
  }

  lemma BestLastIdempotent(s: Bracket)
    ensures BestLast(BestLast(s)) == BestLast(s)
  {
  }

  /** `ensure_b_is_closest_to_root`: swaps `(a, fa)` with `(b, fb)` when `|fa| < |fb|`. */
  method EnsureBIsClosestToRoot(a: real, b: real, fa: real, fb: real)
    returns (a': real, b': real, fa': real, fb': real)
    ensures Bracket(a', b', fa', fb') == BestLast(Bracket(a, b, fa, fb))
    ensures Abs(fb') <= Abs(fa')
  {
    a', b', fa', fb' := a, b, fa, fb;
    if Abs(fa') < Abs(fb') {
      a', b' := Swap(a', b');
      fa', fb' := Swap(fa', fb');
    }
  }
}

=== FILE: validator.dfy ===
/** `check_a_b_compute_fa_fb` (roots/src/check_a_b_compute_fa_fb.c): the bracket check every
    newer-API solver runs before iterating. */
module Validator {
  import opened Arith
  import opened Roots
  import opened Utils

  /** The three ways validation can end. */
  datatype Validation =
    | Solved(root: real, residual: real)   // roots_success, with root and residual stored
    | Unbracketed                          // roots_error_root_not_bracketed
    | Proceed(s: Bracket)                  // roots_continue, with the ordered bracket

  /** The decision the validator takes for `f` on the caller's `a`, `b`. */
  function Validate(f: real -> real, a: real, b: real, xtol: real, ftol: real): (v: Validation)
    ensures v.Solved? ==> (v.root == a || v.root == b) && v.residual == f(v.root)
    ensures ftol <= Abs(f(a)) && Abs(f(b)) < ftol ==> v == Solved(b, f(b))
    ensures v.Solved? && v.root != b ==> Abs(f(a)) < ftol || Abs(f(a)) < Abs(f(b))
    ensures v.Unbracketed? <==> ftol <= Abs(f(a)) && ftol <= Abs(f(b)) && f(a) * f(b) > 0.0
    ensures v.Proceed? <==> ftol <= Abs(f(a)) && ftol <= Abs(f(b)) && f(a) * f(b) <= 0.0 && xtol <= Abs(a - b)
    ensures v.Proceed? ==>
      && v.s.fa == f(v.s.a) && v.s.fb == f(v.s.b)
      && ((v.s.a == a && v.s.b == b) || (v.s.a == b && v.s.b == a))
      && v.s.fa * v.s.fb <= 0.0
      && Abs(v.s.fb) <= Abs(v.s.fa)
      && xtol <= Abs(v.s.a - v.s.b)
      && ftol <= Abs(v.s.fb)
  {
    var fa := f(a);
    if Abs(fa) < ftol then Solved(a, fa)
    else
      var fb := f(b);
      if Abs(fb) < ftol then Solved(b, fb)
      else if fa * fb > 0.0 then Unbracketed
      else
        var s := BestLast(Bracket(a, b, fa, fb));
        if Abs(s.a - s.b) < xtol then Solved(s.b, s.fb) else Proceed(s)
  }

  /** The status the validator returns. */
  function Status(v: Validation): RootsError {
    match v
    case Solved(_, _) => Success
    case Unbracketed => RootNotBracketed
    case Proceed(_) => Continue
  }

  /** The fields of the record the validator writes: nothing on `roots_continue`. */
  function Record(p: Params, v: Validation): Params {
    match v
    case Solved(x, fx) => p.(root := x, residual := fx, errorKey := Success)
    case Unbracketed => p.(errorKey := RootNotBracketed)
    case Proceed(_) => p
  }

  /** With a positive `ftol` the bracket handed to the loop has a strict sign change,
      so `fb - fa` (the secant denominator) is non-zero. */
  lemma ProceedHasStrictSignChange(f: real -> real, a: real, b: real, xtol: real, ftol: real)
    requires 0.0 < ftol
    requires Validate(f, a, b, xtol, ftol).Proceed?
    ensures var s := Validate(f, a, b, xtol, ftol).s;
      s.fa * s.fb < 0.0 && s.fb - s.fa != 0.0
  {
    var s := Validate(f, a, b, xtol, ftol).s;
    assert s.fa != 0.0 && s.fb != 0.0;
    if s.fa < 0.0 {
      assert s.fb > 0.0;
    } else {
      assert s.fb < 0.0;
    }
  }

  /** When `|f(a)| < ftol` the outcome is fixed before `f(b)` is looked at. */
  lemma ValidateIgnoresBWhenAIsRoot(f: real -> real, g: real -> real, a: real, b: real, xtol: real, ftol: real)
    requires Abs(f(a)) < ftol && g(a) == f(a)
    ensures Validate(f, a, b, xtol, ftol) == Validate(g, a, b, xtol, ftol) == Solved(a, f(a))
  {
  }

  /** The outcome depends on `f` only through `f(a)` and `f(b)`: at most two evaluations. */
  lemma ValidateReadsOnlyEndpoints(f: real -> real, g: real -> real, a: real, b: real, xtol: real, ftol: real)
    requires g(a) == f(a) && g(b) == f(b)
    ensures Validate(f, a, b, xtol, ftol) == Validate(g, a, b, xtol, ftol)
  {
  }

  /** A too-narrow bracket is reported at whichever endpoint has the smaller residual. */
  lemma NarrowBracketReturnsBetterEnd(f: real -> real, a: real, b: real, xtol: real, ftol: real)
    requires ftol <= Abs(f(a)) && ftol <= Abs(f(b)) && f(a) * f(b) <= 0.0
    requires Abs(a - b) < xtol
    ensures var v := Validate(f, a, b, xtol, ftol);
      v.Solved? && Abs(v.residual) <= Abs(f(a)) && Abs(v.residual) <= Abs(f(b))
  {
  }

  /** `check_a_b_compute_fa_fb`. `a`, `b`, `fa`, `fb` are the caller's locals passed by
      pointer; `fb` keeps the caller's value when `f(b)` is never computed. */
  method CheckABComputeFaFb(f: real -> real, a: real, b: real, fa: real, fb: real, r: RootsParams)
    returns (status: RootsError, a': real, b': real, fa': real, fb': real, ghost evals: nat)
    modifies r
    ensures var v := Validate(f, a, b, old(r.xtol), old(r.ftol));
      && status == Status(v)
      && r.Value() == Record(old(r.Value()), v)
      && (v.Proceed? ==> v.s == Bracket(a', b', fa', fb'))
    ensures Abs(f(a)) < old(r.ftol) ==> Bracket(a', b', fa', fb') == Bracket(a, b, f(a), fb) && evals == 1
    ensures old(r.ftol) <= Abs(f(a)) ==> evals == 2
    ensures status == RootNotBracketed ==> Bracket(a', b', fa', fb') == Bracket(a, b, f(a), f(b))
  {
    a', b', fb' := a, b, fb;
    // Step 1: compute fa; check if a is the root
    fa' := f(a');
    evals := 1;
    if Abs(fa') < r.ftol {
      r.root := a';
      r.residual := fa';
      r.errorKey := Success;
      status := r.errorKey;
      return;
    }
    // Step 2: compute fb; check if b is the root
    fb' := f(b');
    evals := 2;
    if Abs(fb') < r.ftol {
      r.root := b';
      r.residual := fb';
      r.errorKey := Success;
      status := r.errorKey;
      return;
    }
    // Step 3: the root must be in [a, b]
    if fa' * fb' > 0.0 {
      r.errorKey := RootNotBracketed;
      status := r.errorKey;
      return;
    }
    // Step 4: keep the better estimate in b
    a', b', fa', fb' := EnsureBIsClosestToRoot(a', b', fa', fb');
    // Step 5: a bracket narrower than xtol is already solved
    if Abs(a' - b') < r.xtol {
      r.root := b';
      r.residual := fb';
      r.errorKey := Success;
      status := r.errorKey;
      return;
    }
    status := Continue;
  }
}
